=== FILE: README.md ===
# mob: a verified model of the target engine

`mob` builds and installs software for a target device. Every device, project
and install is described by an INI-style file under `mobfiles/`. A project's
`Main` section can name the projects it `Depends` on and the installs it
`Installs`. The program does four things:

1. It loads the device and then each named target. Each target file is
   seeded with the caller's `--args` and with the device's options, flattened
   to `device.<section>.<option>`.
2. It expands each project into a tree of dependency targets. Cycle detection
   uses one ancestry list that the whole construction shares.
3. It linearises the tree so that dependencies come before dependents, unless
   `--no-deps` is given.
4. It runs the clean, configure, build, install, connect or disconnect shell
   commands in order, and stops at the first one that fails.

This project models all four steps in Dafny as pure functions:

- The configuration files are a map from (kind, name) to the config reader's
  verdict on the file.
- The shell is a runner oracle that takes the command's position and text and
  returns an exit code.
- Every fatal condition is an `Error` value. `Errors.ExitStatus` gives the
  status the process exits with.

| file | module | models |
|---|---|---|
| errors.dfy | Errors | fatal conditions, exit statuses, `Result`/`Option` |
| words.dfy | Words | `str.split()` on list options |
| ini.dfy | Ini | the reader's ordered sections, `set`, `as_dict` |
| config.dfy | ConfigFiles | `ConfigFile`, `Device`, accessors, seed map |
| targets.dfy | Targets | `ProjectTarget`/`InstallTarget` construction and cycle detection |
| resolver.dfy | Resolver | `resolveDependencies` and list membership |
| driver.dfy | Driver | command-line checks, the root, the steps, the run |

A few behaviours of the program, modelled as written:

- The ancestry list is shared by all branches, and a name pushed on it is
  never popped. A project pushes its name only while it expands its own
  `Depends` list. So a project that has `Depends` entries of its own, once
  built under one branch, is reported as a circular dependency when a later
  branch reaches it again, even when there is no cycle. A shared leaf project
  is not affected.
  `Targets.DiamondFalsePositive` exhibits this on concrete files, and
  `Targets.DiamondFails` proves it for any files of that shape;
  `Targets.SharedLeafBuilds` proves that a shared leaf builds.
- The clean step is guarded by the build command, not by the clean command.
- An install runs its install command even when that command is empty.
- Equality and list membership follow Python 2: a project equals
  anything with the same name; two installs are equal only when they are the
  same object. The model gives each install a serial number to stand for its
  identity, and `Driver.RootInstallsDistinct` proves that no two installs of
  one run share a serial.
- A file's `[DEFAULT]` section is kept apart from its other sections, as the
  config reader keeps it. Its options override the seed for every `Main`
  lookup, and `as_dict` never lists them.

## Model

| member | source | states |
|---|---|---|
| Errors.ExitStatus | mob.py:47-54 | Every fatal condition the program detects exits with 1; only the command-line layer's rejections exit with 2; no fatal condition exits with 0. |
| Words.Split | mob.py:86 | Splitting a list option yields only non-empty words free of whitespace, and nothing for an empty value. |
| Words.SplitWord | mob.py:86 | A single word with no whitespace in it splits to exactly itself. |
| Words.SplitSpaces | mob.py:86 | A value made only of whitespace splits to nothing. |
| Words.SplitAtSpace | mob.py:86 | A whitespace character cuts a value in two: the split of the whole is the split of the part before it followed by the split of the part after it. |
| Words.SplitJoin | mob.py:97 | Splitting a list of words written with single spaces gives back exactly that list. |
| Ini.PutEntry | mob.py:56 | `set` gives the option the new value, leaves every other option's value alone, adds no other option and keeps option names distinct. |
| Ini.SetOptionLookup | mob.py:56 | After `set('Main', 'Name', v)` the option reads `v`, and every other section/option pair reads what it read before. |
| Ini.AsDictSound | mob.py:30-38 | Every key of `as_dict(prefix)` is `prefix.section.option` for a declared option other than `__name__`, and holds that option's value. |
| Ini.AsDictComplete | mob.py:34-36 | For files with distinct, dot-free section names and distinct option names, every declared option other than `__name__` appears under its `prefix.section.option` key with its value. |
| Ini.AsDictDropsBookkeeping | mob.py:37 | For dot-free section names, no `prefix.section.__name__` key is in `as_dict`'s result. |
| ConfigFiles.Load | mob.py:40-54 | A missing file fails with the missing-file error and its path; an unparseable one fails with the parse error; any other file loads, keeping its name, kind and declared sections, with the options of its `[DEFAULT]` section laid over the seed; every failure exits with 1. |
| ConfigFiles.MainValueSections | mob.py:55-56 | Reading `Main` through the loaded configuration gives what the reader holds after `Name` is forced to the file's name, and the forced `set` neither adds nor removes the `Main` section. |
| ConfigFiles.LoadForcesName | mob.py:55-56 | A loaded file keeps its sections in order, and every option except `Main.Name` reads as in the file. When `Main` exists, its `Name` holds the name the file was loaded as. Well-formed files stay well-formed. |
| ConfigFiles.OptionValue | mob.py:103-110 | An accessor returns `Main`'s own value (with the forced name) first, then the default (the file's `[DEFAULT]` option, else the seed), and `""` when `Main` or the option is absent; it never fails. |
| ConfigFiles.DefaultSectionOverridesSeed | mob.py:44-51 | An option of the file's `[DEFAULT]` section answers for a `Main` that does not declare it, whatever the seed holds under that key. |
| ConfigFiles.DeviceAccessors | mob.py:62-69 | A device's architecture, connect and disconnect commands are the `Main` section's values, else the device file's `[DEFAULT]` values, or `""` when there is no `Main` section or neither has the option. |
| ConfigFiles.SeedPrecedence | mob.py:78 | The seed map holds every declared device option under its `device.` key with the device's value, even over a clashing argument. Every other argument keeps its value, and nothing else is added. |
| ConfigFiles.SeedNamesDevice | mob.py:117 | Every project and install sees the device's own name under `device.Main.Name`, whatever the device file declared there. |
| Targets.BuildProject | mob.py:76-101 | A project already on the ancestry list fails; a missing or unparseable file fails with that error; every failure exits with 1 and is a file error or a cycle between a project and an entry its file really lists. A success is the file's configuration with one project child per `Depends` entry, then one install child per `Installs` entry, in order. It holds no ancestry cycle and no project named on the list it started from, and the list only grows. Its installs carry exactly the serial numbers from the state's next one up to the returned next one, in tree order. |
| Targets.ExpandDepends | mob.py:85-95 | When the entry the `Depends` loop is at is already on the list, the loop fails with exactly the cycle between the parent and that entry. Any failure is a file error or such a cycle on a real `Depends` edge. When the loop succeeds, it yields one cycle-free project per entry, in order, none of them named like the parent or an entry of the starting list, and the installs under them are numbered consecutively from the state's next serial. |
| Targets.ExpandNext | mob.py:91-94 | One pass for an entry not yet on the list: the parent's name is pushed, the entry is built and the loop goes on. Every failure exits with 1 and is a file error or a cycle on a real `Depends` edge. A success delivers the same guarantees as the whole loop: one cycle-free project per remaining entry, in order, with the installs under them numbered consecutively from the state's next serial. |
| Targets.ExpandInstalls | mob.py:96-101 | The `Installs` loop succeeds exactly when every install file loads, and otherwise fails with a missing-file or parse error; it yields one install per entry, in order, each with a fresh serial number. |
| Targets.NewProjectTarget | mob.py:243-244 | A command-line project starts a fresh ancestry list. A success is cycle-free and matches its files all the way down, and the serial it hands back is no smaller than the one it was given; a failed load of its own file is reported as is, and any failure is a file error or a cycle on a real `Depends` edge. |
| Targets.ProjectTargetSerials | mob.py:243-244 | The installs of a command-line project are numbered `serial`, `serial + 1`, … up to the serial it hands back, in tree order, so no number is used twice. |
| Targets.NewInstallTarget | mob.py:115-118 | An install target succeeds exactly when its file loads, and otherwise fails with that file's error; it is a leaf with no dependencies. |
| Targets.TreeBuilds | mob.py:76-101 | Construction succeeds when the files unfold to a tree in which no project name occurs twice and none is on the list yet. Every name it leaves on the list was there before or names a project of that tree. |
| Targets.ExpandBuilds | mob.py:85-95 | On such a tree, the `Depends` loop never meets a listed name. The list holds only names from outside the tree, the project's own name and projects of the children already built. |
| Targets.DistinctTreeBuilds | mob.py:243-244 | A command-line project builds whenever its files unfold to a tree in which no project name occurs twice. |
| Targets.RealCycleFails | mob.py:85-93 | Every real cycle is caught. When the `Depends` entries lead from a project back to a name already passed on the way, building the first project fails. |
| Targets.DefaultSectionDepends | mob.py:85-86 | A project file whose `Depends` is only in `[DEFAULT]`, under an empty `Main`, still depends on that project. |
| Targets.StopsOnListed | mob.py:88-90 | A project whose first dependency is already on the list fails with a cycle between itself and that dependency. |
| Targets.SelfDependencyFails | mob.py:88-90 | A project that lists itself first fails with itself on both sides of the cycle. |
| Targets.MutualDependencyFails | mob.py:88-93 | Two projects that list each other fail when the second one asks for the first. |
| Targets.DiamondFails | mob.py:88-93 | With `a → b c`, `b → d`, `c → b` (no real cycle), building `a` fails with a cycle between `c` and `b`. `b`'s name stays on the shared list after `b` is expanded. |
| Targets.DiamondFalsePositive | mob.py:92 | The same false positive on four concrete project files. |
| Targets.SharedLeafBuilds | mob.py:88-93 | With `a → b c`, `b → d`, `c → d` and `d` a leaf, building `a` succeeds: a leaf never pushes its own name, so the second visit to `d` finds it off the list. |
| Resolver.Resolve | mob.py:124-128 | Resolution only appends to the list; the node itself comes last; every node it adds lies below it in the tree. |
| Resolver.ResolvePrecedes | mob.py:125-128 | If every node's dependencies already precede it in the list, they still do after resolution. |
| Resolver.ResolveUnique | mob.py:112-113 | Resolving a cycle-free tree that is not yet in the list adds no second project of an existing name. |
| Resolver.ResolveRoot | mob.py:254 | Resolving the root from an empty list puts the root last and dependencies first. No project appears twice, and every command-line target is in the list. |
| Driver.Validate | mob.py:170-188 | The command line is accepted exactly when the device is known and, for `build`/`install`, at least one target is given and each is among the command's choices. A rejection exits with 2. |
| Driver.FirstUnknown | mob.py:171 | Targets pass exactly when all are among the choices; a failure names a given target that is not one. |
| Driver.TargetArguments | mob.py:230-239 | `build` seeds `Main.BuildType`, `install` nothing. A given `--args` mapping replaces either wholesale; an unparsable one fails with its text. |
| Driver.MakeRoot | mob.py:241-248 | The root gets one child per command-line name, in order. A project name gets a project and any other name an install; each child is cycle-free and matches its files. Every failure exits with 1 and is a file error or a cycle on a real `Depends` edge. |
| Driver.RootBuilds | mob.py:241-248 | The root is built whenever every project name unfolds, through its files, to a tree with no project name repeated and every other name's install file loads. |
| Driver.RootFailure | mob.py:241-248 | When the root is not built, some command-line name's own project or install target fails, and the root stops with exactly that error. |
| Driver.RootSerials | mob.py:241-248 | The installs under the children the root gets carry strictly increasing serial numbers in tree order, none below the serial the root started from. |
| Driver.RootInstallsDistinct | mob.py:241-248 | No two installs anywhere under the finished root share a serial number, so comparing installs by value tells two install objects apart exactly as Python 2's identity test does. |
| Driver.RootShape | mob.py:241-248 | The finished root has exactly one child per target in order, and the tree under it is cycle-free and matches the files. |
| Driver.TargetListOrder | mob.py:250-254 | With `--no-deps` the list is exactly the root's children. Otherwise the root is last, dependencies precede dependents, no project repeats, and every target is in. |
| Driver.ProjectStepsSpec | mob.py:259-267 | A project emits clean, configure, build in that order, each at most once and with its own command. Clean runs iff `--clean` and the build command is non-empty, configure iff no `--no-config` and it is non-empty, build iff it is non-empty. |
| Driver.StepsInOrder | mob.py:256 | The steps of each node of the list come after those of every earlier node and before those of every later one. |
| Driver.InstallModeSteps | mob.py:268-271 | Under `install` the run is exactly one install step per install node, in list order, with its install command even when empty; projects run nothing. |
| Driver.BuildModeSkipsInstalls | mob.py:257-267 | Under `build` every step is a clean, configure or build step of some project of the list; installs run nothing. |
| Driver.DeviceSteps | mob.py:273-279 | `device` runs the chosen action's command exactly when the device declares a non-empty one, and nothing else. |
| Driver.Plan | mob.py:190-229 | A rejected command line exits with 2 before anything else. A device that fails to load stops the run with its error. Otherwise `device` plans its action's step, and `build`/`install` plan their targets. |
| Driver.PlanTargets | mob.py:229-271 | Unparsable `--args` stop the run with that text. The plan exists exactly when the arguments parse and the root is built, and it is then the steps of the root's target list (the resolved order, or the bare children under `--no-deps`). Every failure exits with 1. |
| Driver.PlanTargetsBuilds | mob.py:229-248 | With parseable arguments, `build` and `install` get a plan whenever every target is buildable under the seeded configuration. |
| Driver.PlanTargetsFailure | mob.py:229-248 | With parseable arguments, a `build` or `install` without a plan stops with the error of one target that failed on its own. |
| Driver.DeviceIgnoresTargets | mob.py:182-188 | A `device` run plans the same steps whatever the target list holds, since that sub-command takes none. |
| Driver.Execute | mob.py:217-219 | Commands run in order. The run ends with 0 exactly when every command exits with 0, and then all were started. Otherwise it ends with 1 right after the first failing command, and every command before it exited with 0. |
| Driver.Mob | mob.py:190-279 | A whole run ends with 0 exactly when the plan exists and every planned command succeeds. It ends with 2 exactly when the command line is rejected, and with 1 otherwise. Nothing starts without a plan, and a failing command is the last one started. |

## Left out

- Running commands (mob.py:193-223): the subprocess, the quiet-mode spinner and `--time` timing are I/O and wall-clock time. A runner oracle `run(position, command)` returns the exit code instead, and the echoing of each command is not modelled.
- Printing (mob.py:14-27 and every message call): messages and colours carry no behaviour beyond the exit status.
- Name discovery (mob.py:130-153): globbing `./mobfiles` and `MOBFILES` is filesystem I/O. The discovered names are the `Catalogue` input. Configurations are always read from `mobfiles/` (mob.py:45), as modelled.
- Argument parsing (mob.py:155-190): only its choices checks are modelled (`Driver.Validate`). Option syntax, `--help`, `--time`, `--quiet` and the mutually exclusive connect/disconnect group are left to the parser.
- The config reader's file syntax, `%(...)s` interpolation and option-name case folding: the reader is a library that is not part of this model. A file is given as the reader leaves it: the options of its `[DEFAULT]` section and its other sections, or unparseable.
- `os.path.abspath` (mob.py:45): error paths are the relative `mobfiles/<name>.mob<kind>`.
- `ast.literal_eval` (mob.py:235): `--args` is given as absent, a string-to-string mapping, or unparsable text. An empty `--args` counts as absent, as the program's truth test does. Literals that parse but are not mappings, and non-string values, are not modelled.
- Ini.AsDictComplete: it requires distinct, dot-free section names and distinct option names. Without them, two options can flatten to one key and the later one wins.
- Ini.AsDictDropsBookkeeping: it requires dot-free section names. With dots, a section `a` holding an option `b.__name__` flattens to the same key as the bookkeeping entry of a section `a.b`.
- ConfigFiles.SeedPrecedence: it carries the same requirements as `Ini.AsDictComplete`, for the same reason.
- ConfigFiles.SeedNamesDevice: it also requires a well-formed, dot-free device file with a `Main` section.
- Driver.MakeRoot: a name that is neither a project nor an install is treated as an install. The command-line layer rejects such names first, so the program's stale-variable behaviour for them never arises.
- Targets.BuildProject: a call starting with its own name on the list is only allowed when its first dependency is listed too. Every call the program makes meets this, and it is what lets termination be proved.
- Targets.TreeBuilds: success is proved only for files that unfold to a tree with no repeated project name. Shared leaves also build (`Targets.SharedLeafBuilds`), but the exact condition depends on the order in which the shared list fills, so it is not stated apart from the loop itself.

=== FILE: config.dfy ===
/** Configuration files of devices, projects and installs (mob.py:40-69,
    mob.py:103-110, mob.py:120-121).  A file is looked up by kind and name;
    the config reader's verdict on its contents is given, not computed. */
module ConfigFiles {
  import opened Errors
  import opened Ini

  datatype Kind = DeviceKind | ProjectKind | InstallKind

  function KindName(kind: Kind): string {
    match kind
    case DeviceKind => "device"
    case ProjectKind => "project"
    case InstallKind => "install"
  }

  datatype FileId = FileId(kind: Kind, name: string)

  /** What the config reader makes of an existing file: the options of its
      `[DEFAULT]` section, which the reader keeps apart from every other
      section, and the other sections in file order. */
  datatype FileContent = Unparseable | Parsed(defaultSection: map<string, string>, sections: seq<Section>)

  /** The `mobfiles/` directory: the files that exist there. */
  type Disk = map<FileId, FileContent>

  /** The path the program reads a configuration from (mob.py:45). */
  function ConfigPath(name: string, kind: Kind): string {
    "mobfiles/" + name + ".mob" + KindName(kind)
  }

  /** A loaded configuration: the reader's defaults (the seed map, with the
      file's `[DEFAULT]` options laid over it) and the sections as the file
      declares them.  Only successfully parsed files
      become a `Config`: a failed load stops the run. */
  datatype Config = Config(name: string, kind: Kind, defaults: map<string, string>, sections: seq<Section>)

  const MainSection: string := "Main"
  const NameKey: string := "Name"

  /** `ConfigFile.__init__` (mob.py:41-56): a missing or unparseable file is
      fatal; otherwise the file's `[DEFAULT]` options override the seed, the
      file's sections are kept, and `Main.Name` is read
      through `Sections` and `MainValue`, which apply the forced name. */
  function Load(name: string, kind: Kind, defaults: map<string, string>, disk: Disk): (r: Result<Config>)
    ensures FileId(kind, name) !in disk ==> r == Fail(MissingConfig(ConfigPath(name, kind)))
    ensures FileId(kind, name) in disk && disk[FileId(kind, name)].Unparseable? ==>
      r == Fail(UnparseableConfig(ConfigPath(name, kind)))
    ensures FileId(kind, name) in disk && disk[FileId(kind, name)].Parsed? <==> r.Ok?
    ensures r.Ok? ==> r.value.name == name && r.value.kind == kind
    ensures r.Ok? ==> r.value.sections == disk[FileId(kind, name)].sections
    ensures r.Ok? ==> var own := disk[FileId(kind, name)].defaultSection;
      && (forall k :: k in r.value.defaults <==> k in defaults || k in own)
      && (forall k <- own :: r.value.defaults[k] == own[k])
      && (forall k <- defaults :: k !in own ==> r.value.defaults[k] == defaults[k])
    ensures r.Fail? ==> ExitStatus(r.error) == 1
  {
    var id := FileId(kind, name);
    if id !in disk then Fail(MissingConfig(ConfigPath(name, kind)))
    else match disk[id]
      case Unparseable => Fail(UnparseableConfig(ConfigPath(name, kind)))
      case Parsed(own, file) => Ok(Config(name, kind, defaults + own, file))
  }

  /** The reader's sections once loading is over: when the file has a `Main`
      section, its `Name` option is set to the name the file was loaded as
      (mob.py:55-56). */
  function Sections(cfg: Config): seq<Section> {
    if HasSection(cfg.sections, MainSection) then SetOption(cfg.sections, MainSection, NameKey, cfg.name)
    else cfg.sections
  }

  /** The value `Main` holds for `key` once loading is over. */
  function MainValue(cfg: Config, key: string): Option<string> {
    if key == NameKey && HasSection(cfg.sections, MainSection) then Some(cfg.name)
    else Lookup(cfg.sections, MainSection, key)
  }

  /** `MainValue` reads what the reader holds after the forced `set`. */
  lemma MainValueSections(cfg: Config, key: string)
    ensures MainValue(cfg, key) == Lookup(Sections(cfg), MainSection, key)
    ensures HasSection(Sections(cfg), MainSection) == HasSection(cfg.sections, MainSection)
  {
    SetOptionLookup(cfg.sections, MainSection, NameKey, cfg.name);
    assert HasSection(Sections(cfg), MainSection) == HasSection(cfg.sections, MainSection) by {
      if HasSection(cfg.sections, MainSection) {
        var r := SetOption(cfg.sections, MainSection, NameKey, cfg.name);
        var i :| 0 <= i < |cfg.sections| && cfg.sections[i].name == MainSection;
        assert r[i].name == MainSection;
      }
    }
  }

  /** A loaded file keeps its sections in order and every option it declared,
      except that a `Main` section's `Name` now holds the name the file was
      loaded as, whatever the file said (mob.py:55-56). */
  lemma LoadForcesName(name: string, kind: Kind, defaults: map<string, string>, disk: Disk)
    requires Load(name, kind, defaults, disk).Ok?
    ensures var file, cfg := disk[FileId(kind, name)].sections, Load(name, kind, defaults, disk).value;
      && |Sections(cfg)| == |file|
      && (forall i :: 0 <= i < |file| ==> Sections(cfg)[i].name == file[i].name)
      && (HasSection(file, MainSection) ==> Lookup(Sections(cfg), MainSection, NameKey) == Some(name))
      && (forall s, k :: s != MainSection || k != NameKey ==> Lookup(Sections(cfg), s, k) == Lookup(file, s, k))
      && (WellFormed(file) ==> WellFormed(Sections(cfg)))
  {
    var file := disk[FileId(kind, name)].sections;
    SetOptionLookup(file, MainSection, NameKey, name);
    if WellFormed(file) {
      SetOptionWellFormed(file, MainSection, NameKey, name);
    }
  }

  /** `has_option('Main', key)`: the `Main` section exists and either holds
      the option or the defaults do. */
  predicate HasOption(cfg: Config, key: string) {
    HasSection(cfg.sections, MainSection)
    && (MainValue(cfg, key).Some? || key in cfg.defaults)
  }

  /** `get('Main', key)`: the section's own value first, then the default. */
  function Get(cfg: Config, key: string): string
    requires HasOption(cfg, key)
  {
    match MainValue(cfg, key)
    case Some(v) => v
    case None => cfg.defaults[key]
  }

  /** The accessor pattern every command getter follows: the option's value
      when `Main` has it, otherwise the empty string, never a failure. */
  function OptionValue(cfg: Config, key: string): (r: string)
    ensures !HasSection(cfg.sections, MainSection) ==> r == ""
    ensures HasSection(cfg.sections, MainSection) && MainValue(cfg, key).Some? ==> r == MainValue(cfg, key).value
    ensures MainValue(cfg, key).None? && key in cfg.defaults && HasSection(cfg.sections, MainSection) ==>
      r == cfg.defaults[key]
    ensures MainValue(cfg, key).None? && key !in cfg.defaults ==> r == ""
  {
    if HasOption(cfg, key) then Get(cfg, key) else ""
  }

  /** An option the file's `[DEFAULT]` section declares answers for `Main`
      when `Main` does not declare it, over whatever the seed holds. */
  lemma DefaultSectionOverridesSeed(name: string, kind: Kind, defaults: map<string, string>, disk: Disk, key: string)
    requires Load(name, kind, defaults, disk).Ok?
    requires var file := disk[FileId(kind, name)];
      key in file.defaultSection && HasSection(file.sections, MainSection)
      && key != NameKey && Lookup(file.sections, MainSection, key).None?
    ensures OptionValue(Load(name, kind, defaults, disk).value, key) == disk[FileId(kind, name)].defaultSection[key]
  {
  }

  // ------------------------------------------------------------- devices

  /** `Device(name)` (mob.py:59-60): a device file is read with no defaults. */
  function LoadDevice(name: string, disk: Disk): Result<Config> {
    Load(name, DeviceKind, map[], disk)
  }

  function Architecture(device: Config): string { OptionValue(device, "Architecture") }
  function ConnectCommand(device: Config): string { OptionValue(device, "ConnectCommand") }
  function DisconnectCommand(device: Config): string { OptionValue(device, "DisconnectCommand") }

  /** What an accessor reads from a reader holding `secs` and `defaults`:
      nothing without a `Main` section, else `Main`'s own value, else the
      default, else nothing. */
  function MainOrDefault(secs: seq<Section>, defaults: map<string, string>, key: string): string {
    if !HasSection(secs, MainSection) then ""
    else match Lookup(secs, MainSection, key)
      case Some(v) => v
      case None => if key in defaults then defaults[key] else ""
  }

  /** Each device getter reads its own option of `Main` in the loaded file,
      falls back on the file's `[DEFAULT]` section (a device has no seed),
      and is empty when the device file has no `Main` section or neither
      place has the option. */
  lemma DeviceAccessors(name: string, disk: Disk)
    requires LoadDevice(name, disk).Ok?
    ensures var d, own := LoadDevice(name, disk).value, disk[FileId(DeviceKind, name)].defaultSection;
      && Architecture(d) == MainOrDefault(Sections(d), own, "Architecture")
      && ConnectCommand(d) == MainOrDefault(Sections(d), own, "ConnectCommand")
      && DisconnectCommand(d) == MainOrDefault(Sections(d), own, "DisconnectCommand")
  {
    var d := LoadDevice(name, disk).value;
    assert d.defaults == disk[FileId(DeviceKind, name)].defaultSection;
    MainValueSections(d, "Architecture");
    MainValueSections(d, "ConnectCommand");
    MainValueSections(d, "DisconnectCommand");
  }

  // ------------------------------------------------------ projects, installs

  function ConfigureCommand(cfg: Config): string { OptionValue(cfg, "ConfigureCommand") }
  function BuildCommand(cfg: Config): string { OptionValue(cfg, "BuildCommand") }
  function CleanCommand(cfg: Config): string { OptionValue(cfg, "CleanCommand") }
  function InstallCommand(cfg: Config): string { OptionValue(cfg, "InstallCommand") }

  /** The seed map a project or install is read with (mob.py:78, mob.py:117):
      the caller arguments with the device's options laid over them under
      `device.<section>.<option>` keys. */
  function SeedDefaults(arguments: map<string, string>, device: Config): map<string, string> {
    arguments + AsDict("device", Sections(device))
  }

  /** Seed precedence: every declared device option shows up under its
      `device.` key with the device's value, even when an argument uses the
      same key; every other key keeps the caller's value; nothing else is
      added. */
  lemma SeedPrecedence(arguments: map<string, string>, device: Config)
    requires WellFormed(Sections(device)) && DotFreeSections(Sections(device))
    ensures var seed, secs := SeedDefaults(arguments, device), Sections(device);
      && (forall pr <- Pairs(KeyPrefix("device"), secs) :: pr.0 in seed && seed[pr.0] == pr.1)
      && (forall k <- arguments :: k !in AsDict("device", secs) ==> seed[k] == arguments[k])
      && (forall k <- seed :: k in arguments || (k, seed[k]) in Pairs(KeyPrefix("device"), secs))
  {
    AsDictComplete("device", Sections(device));
    AsDictSound("device", Sections(device));
  }

  /** A declared option of a section shows up in the reference list. */
  lemma {:induction false} LookupInPairs(p: string, secs: seq<Section>, section: string, key: string)
    requires Lookup(secs, section, key).Some? && key != NameOption
    ensures (ItemKey(p, section, key), Lookup(secs, section, key).value) in Pairs(p, secs)
    decreases |secs|
  {
    if secs[0].name == section {
      var es := secs[0].entries;
      var j :| 0 <= j < |es| && es[j] == Entry(key, Lookup(secs, section, key).value);
      SectionPairsHas(p, section, es, j);
    } else {
      LookupInPairs(p, secs[1..], section, key);
    }
  }

  /** Every project and install sees the device's own name under
      `device.Main.Name`, whatever the device file declared there. */
  lemma SeedNamesDevice(arguments: map<string, string>, name: string, disk: Disk)
    requires LoadDevice(name, disk).Ok?
    requires WellFormed(disk[FileId(DeviceKind, name)].sections)
    requires DotFreeSections(disk[FileId(DeviceKind, name)].sections)
    requires HasSection(disk[FileId(DeviceKind, name)].sections, MainSection)
    ensures var seed := SeedDefaults(arguments, LoadDevice(name, disk).value);
      ItemKey(KeyPrefix("device"), MainSection, NameKey) in seed
      && seed[ItemKey(KeyPrefix("device"), MainSection, NameKey)] == name
  {
    var file := disk[FileId(DeviceKind, name)].sections;
    var d := LoadDevice(name, disk).value;
    LoadForcesName(name, DeviceKind, map[], disk);
    assert WellFormed(Sections(d)) && DotFreeSections(Sections(d));
    LookupInPairs(KeyPrefix("device"), Sections(d), MainSection, NameKey);
    SeedPrecedence(arguments, d);
  }
}

=== FILE: driver.dfy ===
/** The driver (mob.py:225-279): load the device, build the target tree,
    linearise it and turn each node into the commands it runs, then run them
    in order against a runner that reports exit codes, stopping at the first
    failure.  Planning is a pure function; the runner is a parameter. */
module Driver {
  import opened Errors
  import opened ConfigFiles
  import opened Targets
  import opened Resolver

  datatype DeviceAction = Connect | Disconnect

  datatype Command = BuildCmd | InstallCmd | DeviceCmd(action: DeviceAction)

  datatype BuildType = Debug | Release

  function TypeName(t: BuildType): string {
    match t
    case Debug => "debug"
    case Release => "release"
  }

  /** The `--args` option: not given (or given empty), a mapping literal, or
      text that is not one. */
  datatype ArgsText = Absent | Mapping(entries: map<string, string>) | Unparsable(text: string)

  /** A parsed command line.  `clean` and `noConfig` exist for `build` only
      and are ignored otherwise.  The `device` sub-command takes no targets
      (mob.py:182-188), so the parser always leaves `targets` empty for it;
      the model never reads `targets` for `device` (`DeviceIgnoresTargets`). */
  datatype Invocation = Invocation(
    command: Command,
    device: string,
    targets: seq<string>,
    clean: bool,
    noConfig: bool,
    noDeps: bool,
    buildType: BuildType,
    args: ArgsText)

  /** The names the program discovered on disk, per kind. */
  datatype Catalogue = Catalogue(devices: set<string>, projects: set<string>, installs: set<string>)

  // -------------------------------------------------- command-line layer

  /** The names a command accepts as targets (mob.py:171, mob.py:180). */
  function Choices(command: Command, cat: Catalogue): set<string> {
    match command
    case BuildCmd => cat.projects
    case InstallCmd => cat.projects + cat.installs
    case DeviceCmd(_) => {}
  }

  /** What the command-line layer accepts: a known device and, for `build`
      and `install`, one or more targets among the command's choices. */
  ghost predicate Accepted(inv: Invocation, cat: Catalogue) {
    && inv.device in cat.devices
    && (!inv.command.DeviceCmd? ==> |inv.targets| > 0 && forall n <- inv.targets :: n in Choices(inv.command, cat))
  }

  /** The choices checks of the argument parser (mob.py:170-171,
      mob.py:179-180, mob.py:188); it rejects with exit status 2. */
  function Validate(inv: Invocation, cat: Catalogue): (r: Result<()>)
    ensures r.Ok? <==> Accepted(inv, cat)
    ensures r.Fail? ==> ExitStatus(r.error) == 2
  {
    if inv.device !in cat.devices then Fail(UnknownName(inv.device))
    else if inv.command.DeviceCmd? then Ok(())
    else if inv.targets == [] then Fail(NoTargets)
    else FirstUnknown(inv.targets, Choices(inv.command, cat), 0)
  }

  function FirstUnknown(names: seq<string>, choices: set<string>, i: nat): (r: Result<()>)
    requires i <= |names|
    ensures r.Ok? <==> forall k :: i <= k < |names| ==> names[k] in choices
    ensures r.Fail? ==> r.error.UnknownName? && r.error.name in names[i..] && r.error.name !in choices
    decreases |names| - i
  {
    if i == |names| then Ok(())
    else if names[i] !in choices then Fail(UnknownName(names[i]))
    else FirstUnknown(names, choices, i + 1)
  }

  // ------------------------------------------------------ target arguments

  /** The seed arguments (mob.py:230-239): `build` starts from its build
      type, `install` from nothing, and a given `--args` mapping replaces
      either wholesale. */
  function TargetArguments(inv: Invocation): (r: Result<map<string, string>>)
    ensures inv.args.Unparsable? <==> r.Fail?
    ensures r.Fail? ==> r.error == MalformedArguments(inv.args.text)
    ensures inv.args.Mapping? ==> r == Ok(inv.args.entries)
    ensures inv.args.Absent? && inv.command.BuildCmd? ==>
      r.Ok? && r.value.Keys == {"Main.BuildType"} && r.value["Main.BuildType"] == TypeName(inv.buildType)
    ensures inv.args.Absent? && !inv.command.BuildCmd? ==> r == Ok(map[])
  {
    var base := if inv.command.BuildCmd? then map["Main.BuildType" := TypeName(inv.buildType)] else map[];
    match inv.args
    case Absent => Ok(base)
    case Mapping(m) => Ok(m)
    case Unparsable(text) => Fail(MalformedArguments(text))
  }

  // ------------------------------------------------------------ the root

  /** What the root holds at a command-line position naming `name`: a node
      of that name, a project exactly when the name is a project's. */
  predicate RootChild(cat: Catalogue, name: string, node: Node) {
    && node.Name() == name
    && (node.Project? <==> name in cat.projects)
    && (node.Install? <==> name !in cat.projects)
  }

  /** Every node of `out` from position `from` on is free of ancestry cycles. */
  ghost predicate AllAcyclic(out: seq<Node>, from: nat) {
    forall k :: from <= k < |out| ==> Acyclic(out[k])
  }

  /** `out` is `acc` followed by one child per name from position `i` on,
      each the name's node, free of ancestry cycles and matching the
      files. */
  ghost predicate Rooted(ctx: Context, cat: Catalogue, names: seq<string>, i: nat, acc: seq<Node>, out: seq<Node>)
    requires i <= |names|
  {
    && Named(cat, names, i, acc, out)
    && AllAcyclic(out, |acc|)
    && AllMatchFiles(ctx, out, |acc|)
  }

  /** `out` is `acc` followed by one child per name from position `i` on,
      each the name's node. */
  ghost predicate Named(cat: Catalogue, names: seq<string>, i: nat, acc: seq<Node>, out: seq<Node>)
    requires i <= |names|
  {
    && |out| == |acc| + |names| - i
    && out[..|acc|] == acc
    && (forall k :: |acc| <= k < |out| ==> RootChild(cat, names[i + k - |acc|], out[k]))
  }

  /** The children of the synthetic root (mob.py:241-248), from position
      `i` on: each name is tried as a project first, then as an install;
      every project gets a fresh ancestry list, and install serials carry on
      across the targets. */
  function MakeRoot(ctx: Context, cat: Catalogue, names: seq<string>, i: nat, serial: nat, acc: seq<Node>)
    : (r: Result<seq<Node>>)
    requires i <= |names|
    ensures r.Fail? ==> ExitStatus(r.error) == 1
    ensures r.Fail? ==> ConstructionError(ctx, r.error)
    ensures r.Ok? ==> Rooted(ctx, cat, names, i, acc, r.value)
    decreases |names| - i
  {
    if i == |names| then
      Ok(acc)
    else if names[i] in cat.projects then
      var p :- NewProjectTarget(ctx, names[i], serial);
      var r :- MakeRoot(ctx, cat, names, i + 1, p.1, acc + [p.0]);
      RootProjectStep(ctx, cat, names, i, serial, acc, p, r);
      Ok(r)
    else
      var t :- NewInstallTarget(ctx, names[i], serial);
      var r :- MakeRoot(ctx, cat, names, i + 1, serial + 1, acc + [t]);
      RootInstallStep(ctx, cat, names, i, serial, acc, t, r);
      Ok(r)
  }

  lemma RootProjectStep(ctx: Context, cat: Catalogue, names: seq<string>, i: nat, serial: nat, acc: seq<Node>,
                        p: (Node, nat), r: seq<Node>)
    requires i < |names| && names[i] in cat.projects && NewProjectTarget(ctx, names[i], serial) == Ok(p)
    requires Rooted(ctx, cat, names, i + 1, acc + [p.0], r)
    ensures Rooted(ctx, cat, names, i, acc, r)
  {
    ProjectChild(ctx, cat, names[i], serial, p);
    ExtendRoot(ctx, cat, names, i, acc, p.0, r);
  }

  lemma RootInstallStep(ctx: Context, cat: Catalogue, names: seq<string>, i: nat, serial: nat, acc: seq<Node>,
                        t: Node, r: seq<Node>)
    requires i < |names| && names[i] !in cat.projects && NewInstallTarget(ctx, names[i], serial) == Ok(t)
    requires Rooted(ctx, cat, names, i + 1, acc + [t], r)
    ensures Rooted(ctx, cat, names, i, acc, r)
  {
    InstallChild(ctx, cat, names[i], serial, t);
    ExtendRoot(ctx, cat, names, i, acc, t, r);
  }

  /** The root's children from position `|acc|` on number their installs
      upwards from `serial`, in the order the command line names them
      (mob.py:241-248). */
  lemma {:induction false} RootSerials(ctx: Context, cat: Catalogue, names: seq<string>, i: nat, serial: nat,
                                       acc: seq<Node>)
    requires i <= |names| && MakeRoot(ctx, cat, names, i, serial, acc).Ok?
    ensures NumberedFrom(MakeRoot(ctx, cat, names, i, serial, acc).value, |acc|, serial)
    decreases |names| - i, 1
  {
    if i == |names| {
      NothingNumbered(acc);
    } else if names[i] in cat.projects {
      RootProjectSerials(ctx, cat, names, i, serial, acc);
    } else {
      RootInstallSerials(ctx, cat, names, i, serial, acc);
    }
  }

  lemma {:induction false} RootProjectSerials(ctx: Context, cat: Catalogue, names: seq<string>, i: nat, serial: nat,
                                              acc: seq<Node>)
    requires i < |names| && names[i] in cat.projects && MakeRoot(ctx, cat, names, i, serial, acc).Ok?
    ensures NumberedFrom(MakeRoot(ctx, cat, names, i, serial, acc).value, |acc|, serial)
    decreases |names| - i, 0
  {
    var p := NewProjectTarget(ctx, names[i], serial).value;
    RootSerials(ctx, cat, names, i + 1, p.1, acc + [p.0]);
    var r := MakeRoot(ctx, cat, names, i + 1, p.1, acc + [p.0]).value;
    ProjectTargetSerials(ctx, names[i], serial);
    PrependSerials(acc, p.0, r, serial, p.1);
  }

  lemma {:induction false} RootInstallSerials(ctx: Context, cat: Catalogue, names: seq<string>, i: nat, serial: nat,
                                              acc: seq<Node>)
    requires i < |names| && names[i] !in cat.projects && MakeRoot(ctx, cat, names, i, serial, acc).Ok?
    ensures NumberedFrom(MakeRoot(ctx, cat, names, i, serial, acc).value, |acc|, serial)
    decreases |names| - i, 0
  {
    var t := NewInstallTarget(ctx, names[i], serial).value;
    RootSerials(ctx, cat, names, i + 1, serial + 1, acc + [t]);
    var r := MakeRoot(ctx, cat, names, i + 1, serial + 1, acc + [t]).value;
    assert Serials(t) == Range(serial, serial + 1);
    PrependSerials(acc, t, r, serial, serial + 1);
  }

  /** Every name from position `i` on is buildable: a project whose files
      unfold to the tree `trees[k]`, with no project name repeated in it, or
      an install whose file loads. */
  ghost predicate TargetsBuildable(ctx: Context, cat: Catalogue, names: seq<string>, trees: seq<Node>, i: nat) {
    && |trees| == |names|
    && (forall k :: i <= k < |names| && names[k] in cat.projects ==>
          MatchesFiles(ctx, trees[k]) && trees[k].Project? && trees[k].name == names[k] && DistinctNames(trees[k]))
    && (forall k :: i <= k < |names| && names[k] !in cat.projects ==> LoadInstall(ctx, names[k]).Ok?)
  }

  /** The root gets built (mob.py:241-248) when every command-line name is
      buildable. */
  lemma {:induction false} RootBuilds(ctx: Context, cat: Catalogue, names: seq<string>, trees: seq<Node>, i: nat,
                                      serial: nat, acc: seq<Node>)
    requires i <= |names| && TargetsBuildable(ctx, cat, names, trees, i)
    ensures MakeRoot(ctx, cat, names, i, serial, acc).Ok?
    decreases |names| - i, 1
  {
    if i < |names| && names[i] in cat.projects {
      RootProjectBuilds(ctx, cat, names, trees, i, serial, acc);
    } else if i < |names| {
      RootInstallBuilds(ctx, cat, names, trees, i, serial, acc);
    }
  }

  lemma {:induction false} RootProjectBuilds(ctx: Context, cat: Catalogue, names: seq<string>, trees: seq<Node>,
                                             i: nat, serial: nat, acc: seq<Node>)
    requires i < |names| && names[i] in cat.projects && TargetsBuildable(ctx, cat, names, trees, i)
    ensures MakeRoot(ctx, cat, names, i, serial, acc).Ok?
    decreases |names| - i, 0
  {
    DistinctTreeBuilds(ctx, trees[i], serial);
    var p := NewProjectTarget(ctx, names[i], serial).value;
    RootBuilds(ctx, cat, names, trees, i + 1, p.1, acc + [p.0]);
  }

  lemma {:induction false} RootInstallBuilds(ctx: Context, cat: Catalogue, names: seq<string>, trees: seq<Node>,
                                             i: nat, serial: nat, acc: seq<Node>)
    requires i < |names| && names[i] !in cat.projects && TargetsBuildable(ctx, cat, names, trees, i)
    ensures MakeRoot(ctx, cat, names, i, serial, acc).Ok?
    decreases |names| - i, 0
  {
    var t := NewInstallTarget(ctx, names[i], serial).value;
    RootBuilds(ctx, cat, names, trees, i + 1, serial + 1, acc + [t]);
  }

  /** What the root does with the name `name` given serial `serial`: the
      project or install target it asks for (mob.py:243-246) fails with `e`. */
  ghost predicate TargetFails(ctx: Context, cat: Catalogue, name: string, serial: nat, e: Error) {
    if name in cat.projects then NewProjectTarget(ctx, name, serial) == Fail(e)
    else NewInstallTarget(ctx, name, serial) == Fail(e)
  }

  /** The root fails only when one of the command-line names from position
      `i` on fails on its own, and it stops with that name's error. */
  lemma {:induction false} RootFailure(ctx: Context, cat: Catalogue, names: seq<string>, i: nat, serial: nat,
                                       acc: seq<Node>)
    requires i <= |names| && MakeRoot(ctx, cat, names, i, serial, acc).Fail?
    ensures exists k, s: nat :: i <= k < |names| && TargetFails(ctx, cat, names[k], s, MakeRoot(ctx, cat, names, i, serial, acc).error)
    decreases |names| - i, 1
  {
    if names[i] in cat.projects {
      RootProjectFailure(ctx, cat, names, i, serial, acc);
    } else {
      RootInstallFailure(ctx, cat, names, i, serial, acc);
    }
  }

  lemma {:induction false} RootProjectFailure(ctx: Context, cat: Catalogue, names: seq<string>, i: nat, serial: nat,
                                              acc: seq<Node>)
    requires i < |names| && names[i] in cat.projects && MakeRoot(ctx, cat, names, i, serial, acc).Fail?
    ensures exists k, s: nat :: i <= k < |names| && TargetFails(ctx, cat, names[k], s, MakeRoot(ctx, cat, names, i, serial, acc).error)
    decreases |names| - i, 0
  {
    var e := MakeRoot(ctx, cat, names, i, serial, acc).error;
    var pr := NewProjectTarget(ctx, names[i], serial);
    if pr.Fail? {
      assert TargetFails(ctx, cat, names[i], serial, e);
    } else {
      var p := pr.value;
      RootFailure(ctx, cat, names, i + 1, p.1, acc + [p.0]);
      var k, s: nat :| i + 1 <= k < |names| && TargetFails(ctx, cat, names[k], s, e);
      assert i <= k;
    }
  }

  lemma {:induction false} RootInstallFailure(ctx: Context, cat: Catalogue, names: seq<string>, i: nat, serial: nat,
                                              acc: seq<Node>)
    requires i < |names| && names[i] !in cat.projects && MakeRoot(ctx, cat, names, i, serial, acc).Fail?
    ensures exists k, s: nat :: i <= k < |names| && TargetFails(ctx, cat, names[k], s, MakeRoot(ctx, cat, names, i, serial, acc).error)
    decreases |names| - i, 0
  {
    var e := MakeRoot(ctx, cat, names, i, serial, acc).error;
    var tr := NewInstallTarget(ctx, names[i], serial);
    if tr.Fail? {
      assert TargetFails(ctx, cat, names[i], serial, e);
    } else {
      RootFailure(ctx, cat, names, i + 1, serial + 1, acc + [tr.value]);
      var k, s: nat :| i + 1 <= k < |names| && TargetFails(ctx, cat, names[k], s, e);
      assert i <= k;
    }
  }

  /** The installs under `out` from position `from` on carry ascending
      serials, none below `lo`. */
  ghost predicate NumberedFrom(out: seq<Node>, from: nat, lo: nat) {
    from <= |out| && Ascending(SerialsOf(out[from..]), lo)
  }

  lemma NothingNumbered(acc: seq<Node>)
    ensures forall lo: nat :: NumberedFrom(acc, |acc|, lo)
  {
    assert acc[|acc|..] == [];
  }

  /** A child numbered from `lo` to `hi`, ahead of children numbered from
      `hi` on, leaves the serials ascending from `lo`. */
  lemma PrependSerials(acc: seq<Node>, child: Node, out: seq<Node>, lo: nat, hi: nat)
    requires lo <= hi && Serials(child) == Range(lo, hi)
    requires |acc| < |out| && out[..|acc| + 1] == acc + [child]
    requires NumberedFrom(out, |acc| + 1, hi)
    ensures NumberedFrom(out, |acc|, lo)
  {
    var tail := out[|acc| + 1..];
    assert out[|acc|..] == [child] + tail;
    SerialsOfJoin([child], tail);
    assert [child][..0] == [];
    assert SerialsOf(out[|acc|..]) == Range(lo, hi) + SerialsOf(tail);
    RangeAscending(lo, hi, SerialsOf(tail));
  }

  /** Install identity is kept apart: no two installs anywhere under the
      root carry the same serial number, so comparing installs by value
      tells two install objects apart exactly as comparing them by
      identity does. */
  lemma RootInstallsDistinct(ctx: Context, cat: Catalogue, names: seq<string>, deps: seq<Node>)
    requires MakeRoot(ctx, cat, names, 0, 0, []) == Ok(deps)
    ensures forall j, k :: 0 <= j < k < |Serials(Root(deps))| ==> Serials(Root(deps))[j] != Serials(Root(deps))[k]
  {
    RootSerials(ctx, cat, names, 0, 0, []);
    assert deps[0..] == deps;
    AscendingBelow(Serials(Root(deps)), 0);
  }

  lemma ProjectChild(ctx: Context, cat: Catalogue, name: string, serial: nat, p: (Node, nat))
    requires name in cat.projects && NewProjectTarget(ctx, name, serial) == Ok(p)
    ensures RootChild(cat, name, p.0) && Acyclic(p.0) && MatchesFiles(ctx, p.0)
  {
  }

  lemma InstallChild(ctx: Context, cat: Catalogue, name: string, serial: nat, t: Node)
    requires name !in cat.projects && NewInstallTarget(ctx, name, serial) == Ok(t)
    ensures RootChild(cat, name, t) && Acyclic(t) && MatchesFiles(ctx, t)
  {
  }

  lemma ExtendRoot(ctx: Context, cat: Catalogue, names: seq<string>, i: nat, acc: seq<Node>, child: Node, r: seq<Node>)
    requires i < |names| && RootChild(cat, names[i], child) && Acyclic(child) && MatchesFiles(ctx, child)
    requires Rooted(ctx, cat, names, i + 1, acc + [child], r)
    ensures Rooted(ctx, cat, names, i, acc, r)
  {
    ExtendChildren(cat, names, i, acc, child, r);
    ExtendAcyclic(acc, child, r);
    ExtendMatchesFiles(ctx, acc, child, r);
  }

  lemma ExtendChildren(cat: Catalogue, names: seq<string>, i: nat, acc: seq<Node>, child: Node, r: seq<Node>)
    requires i < |names| && RootChild(cat, names[i], child)
    requires Named(cat, names, i + 1, acc + [child], r)
    ensures Named(cat, names, i, acc, r)
  {
    assert r[|acc|] == r[..|acc| + 1][|acc|];
    assert r[..|acc|] == r[..|acc| + 1][..|acc|];
  }

  lemma ExtendAcyclic(acc: seq<Node>, child: Node, out: seq<Node>)
    requires Acyclic(child)
    requires |acc| < |out| && out[..|acc| + 1] == acc + [child]
    requires AllAcyclic(out, |acc| + 1)
    ensures AllAcyclic(out, |acc|)
  {
    assert out[|acc|] == out[..|acc| + 1][|acc|];
  }

  /** The root holds one child per command-line target, in order, and no
      ancestry cycle anywhere. */
  lemma RootShape(ctx: Context, cat: Catalogue, names: seq<string>, deps: seq<Node>)
    requires Rooted(ctx, cat, names, 0, [], deps)
    ensures |deps| == |names|
    ensures forall k :: 0 <= k < |names| ==> RootChild(cat, names[k], deps[k])
    ensures Acyclic(Root(deps)) && MatchesFiles(ctx, Root(deps))
  {
    RootChildren(cat, names, deps);
    RootAcyclic(deps);
    RootMatchesFiles(ctx, deps);
  }

  lemma RootChildren(cat: Catalogue, names: seq<string>, deps: seq<Node>)
    requires Named(cat, names, 0, [], deps)
    ensures |deps| == |names|
    ensures forall k :: 0 <= k < |names| ==> RootChild(cat, names[k], deps[k])
  {
    var none: seq<Node> := [];
    forall k | 0 <= k < |names| ensures RootChild(cat, names[k], deps[k]) {
      NamedAt(cat, names, 0, none, deps, k);
    }
  }

  lemma NamedAt(cat: Catalogue, names: seq<string>, i: nat, acc: seq<Node>, out: seq<Node>, k: nat)
    requires i <= |names| && Named(cat, names, i, acc, out)
    requires |acc| <= k < |out|
    ensures RootChild(cat, names[i + k - |acc|], out[k])
  {
  }

  lemma RootAcyclic(deps: seq<Node>)
    requires AllAcyclic(deps, 0)
    ensures Acyclic(Root(deps))
  {
    forall c <- deps ensures Acyclic(c) {
      var k :| 0 <= k < |deps| && deps[k] == c;
    }
  }

  lemma RootMatchesFiles(ctx: Context, deps: seq<Node>)
    requires AllMatchFiles(ctx, deps, 0)
    ensures MatchesFiles(ctx, Root(deps))
  {
    forall c <- deps ensures MatchesFiles(ctx, c) {
      var k :| 0 <= k < |deps| && deps[k] == c;
    }
  }

  /** The order targets are processed in (mob.py:250-254): the root's
      children as given under `--no-deps`, otherwise the resolved list. */
  function TargetList(root: Node, noDeps: bool): seq<Node>
    requires root.Root?
  {
    if noDeps then root.deps else Resolve(root, [])
  }

  /** Without `--no-deps` dependencies come first, no project is processed
      twice, and the root closes the list; with it, exactly the command-line
      targets are processed, in order, and nothing else. */
  lemma TargetListOrder(root: Node, noDeps: bool)
    requires root.Root? && Acyclic(root)
    ensures noDeps ==> TargetList(root, noDeps) == root.deps
    ensures !noDeps ==>
      var l := TargetList(root, noDeps);
      && l[|l| - 1] == root
      && DepsPrecede(l)
      && UniqueProjects(l)
      && forall c <- root.deps :: In(l, c)
  {
    if !noDeps {
      ResolveRoot(root);
    }
  }

  // ----------------------------------------------------------- the steps

  datatype StepKind = CleanStep | ConfigureStep | BuildStep | InstallStep | ConnectStep | DisconnectStep

  /** One command to run, with what it does and whom for. */
  datatype Step = Step(kind: StepKind, target: string, command: string)

  /** The commands a project runs under `build` (mob.py:259-267).  The clean
      step is guarded by the build command, not by the clean command. */
  function ProjectSteps(inv: Invocation, name: string, cfg: Config): seq<Step> {
    GuardedSteps(name,
      inv.clean && BuildCommand(cfg) != "", !inv.noConfig && ConfigureCommand(cfg) != "", BuildCommand(cfg) != "",
      CleanCommand(cfg), ConfigureCommand(cfg), BuildCommand(cfg))
  }

  /** Clean, configure and build steps for `name`, each under its guard. */
  function GuardedSteps(name: string, clean: bool, configure: bool, build: bool,
                        cleanCmd: string, configureCmd: string, buildCmd: string): seq<Step> {
    (if clean then [Step(CleanStep, name, cleanCmd)] else [])
    + (if configure then [Step(ConfigureStep, name, configureCmd)] else [])
    + (if build then [Step(BuildStep, name, buildCmd)] else [])
  }

  /** The order steps of one project come in. */
  function Rank(k: StepKind): nat {
    match k
    case CleanStep => 0
    case ConfigureStep => 1
    case BuildStep => 2
    case _ => 3
  }

  /** Per kind: a project's build steps are clean, configure and build, at
      most one each, in that order; each runs the command of its kind, and
      each is present exactly under its guard. */
  lemma ProjectStepsSpec(inv: Invocation, name: string, cfg: Config)
    ensures var s := ProjectSteps(inv, name, cfg);
      && (forall j, k :: 0 <= j < k < |s| ==> Rank(s[j].kind) < Rank(s[k].kind))
      && (forall st <- s :: st.target == name)
      && (forall st <- s :: st.kind == CleanStep ==> st.command == CleanCommand(cfg))
      && (forall st <- s :: st.kind == ConfigureStep ==> st.command == ConfigureCommand(cfg))
      && (forall st <- s :: st.kind == BuildStep ==> st.command == BuildCommand(cfg))
      && ((exists st <- s :: st.kind == CleanStep) <==> inv.clean && BuildCommand(cfg) != "")
      && ((exists st <- s :: st.kind == ConfigureStep) <==> !inv.noConfig && ConfigureCommand(cfg) != "")
      && ((exists st <- s :: st.kind == BuildStep) <==> BuildCommand(cfg) != "")
      && forall st <- s :: st.kind in {CleanStep, ConfigureStep, BuildStep}
  {
    GuardedStepsSpec(name,
      inv.clean && BuildCommand(cfg) != "", !inv.noConfig && ConfigureCommand(cfg) != "", BuildCommand(cfg) != "",
      CleanCommand(cfg), ConfigureCommand(cfg), BuildCommand(cfg));
  }

  lemma GuardedStepsSpec(name: string, clean: bool, configure: bool, build: bool,
                         cleanCmd: string, configureCmd: string, buildCmd: string)
    ensures var s := GuardedSteps(name, clean, configure, build, cleanCmd, configureCmd, buildCmd);
      && (forall j, k :: 0 <= j < k < |s| ==> Rank(s[j].kind) < Rank(s[k].kind))
      && (forall st <- s :: st.target == name)
      && (forall st <- s :: st.kind == CleanStep ==> st.command == cleanCmd)
      && (forall st <- s :: st.kind == ConfigureStep ==> st.command == configureCmd)
      && (forall st <- s :: st.kind == BuildStep ==> st.command == buildCmd)
      && ((exists st <- s :: st.kind == CleanStep) <==> clean)
      && ((exists st <- s :: st.kind == ConfigureStep) <==> configure)
      && ((exists st <- s :: st.kind == BuildStep) <==> build)
      && forall st <- s :: st.kind in {CleanStep, ConfigureStep, BuildStep}
  {
  }

  /** What one node of the list runs (mob.py:256-271): projects only under
      `build`, installs only under `install` and then always, whether or not
      the install command is empty; the root nothing. */
  function NodeSteps(inv: Invocation, n: Node): seq<Step> {
    match n
    case Project(name, cfg, _) => if inv.command.BuildCmd? then ProjectSteps(inv, name, cfg) else []
    case Install(name, cfg, _) => if inv.command.InstallCmd? then [Step(InstallStep, name, InstallCommand(cfg))] else []
    case Root(_) => []
  }

  /** All steps of the list, node by node. */
  function Steps(inv: Invocation, l: seq<Node>): seq<Step> {
    if l == [] then [] else NodeSteps(inv, l[0]) + Steps(inv, l[1..])
  }

  lemma {:induction false} StepsAppend(inv: Invocation, a: seq<Node>, b: seq<Node>)
    ensures Steps(inv, a + b) == Steps(inv, a) + Steps(inv, b)
    decreases |a|
  {
    if a == [] {
      assert a + b == b;
    } else {
      assert (a + b)[1..] == a[1..] + b;
      StepsAppend(inv, a[1..], b);
    }
  }

  /** Steps keep the order of the nodes: the steps of node `k` come after
      those of every earlier node and before those of every later one. */
  lemma StepsInOrder(inv: Invocation, l: seq<Node>, k: nat)
    requires k < |l|
    ensures Steps(inv, l) == Steps(inv, l[..k]) + NodeSteps(inv, l[k]) + Steps(inv, l[k + 1..])
  {
    assert l == l[..k] + ([l[k]] + l[k + 1..]);
    StepsAppend(inv, l[..k], [l[k]] + l[k + 1..]);
    assert ([l[k]] + l[k + 1..])[1..] == l[k + 1..];
  }

  /** The installs of a list, in order. */
  function InstallNodes(l: seq<Node>): (r: seq<Node>)
    ensures forall n <- r :: n.Install?
  {
    if l == [] then [] else (if l[0].Install? then [l[0]] else []) + InstallNodes(l[1..])
  }

  /** Under `install`, the run is exactly one install step per install node,
      in list order, each with its (possibly empty) install command. */
  lemma {:induction false} InstallModeSteps(inv: Invocation, l: seq<Node>)
    requires inv.command.InstallCmd?
    ensures var s, ins := Steps(inv, l), InstallNodes(l);
      && |s| == |ins|
      && forall k :: 0 <= k < |s| ==>
           s[k] == Step(InstallStep, ins[k].name, InstallCommand(ins[k].config))
    decreases |l|
  {
    if l != [] {
      InstallModeSteps(inv, l[1..]);
    }
  }

  /** Under `build`, no install node contributes a step. */
  lemma {:induction false} BuildModeSkipsInstalls(inv: Invocation, l: seq<Node>)
    requires inv.command.BuildCmd?
    ensures forall st <- Steps(inv, l) :: st.kind in {CleanStep, ConfigureStep, BuildStep}
    ensures forall st <- Steps(inv, l) :: exists n <- l :: n.Project? && st.target == n.name
    decreases |l|
  {
    if l != [] {
      BuildModeSkipsInstalls(inv, l[1..]);
      if l[0].Project? {
        ProjectStepsSpec(inv, l[0].name, l[0].config);
      }
      forall st <- Steps(inv, l) ensures exists n <- l :: n.Project? && st.target == n.name {
        if st in NodeSteps(inv, l[0]) {
          assert l[0] in l;
        } else {
          assert st in Steps(inv, l[1..]);
          var n :| n in l[1..] && n.Project? && st.target == n.name;
          assert n in l;
        }
      }
    }
  }

  /** The device command (mob.py:273-279): the chosen action's command, when
      the device declares a non-empty one; otherwise nothing. */
  function DeviceSteps(action: DeviceAction, device: Config): (r: seq<Step>)
    ensures |r| <= 1
    ensures r != [] <==>
      (action.Connect? && ConnectCommand(device) != "") || (action.Disconnect? && DisconnectCommand(device) != "")
    ensures forall st <- r :: st.target == device.name
    ensures forall st <- r :: st.kind == ConnectStep <==> action.Connect?
    ensures forall st <- r ::
      st.command == (if action.Connect? then ConnectCommand(device) else DisconnectCommand(device))
  {
    if action.Connect? && ConnectCommand(device) != "" then [Step(ConnectStep, device.name, ConnectCommand(device))]
    else if action.Disconnect? && DisconnectCommand(device) != "" then [Step(DisconnectStep, device.name, DisconnectCommand(device))]
    else []
  }

  // ------------------------------------------------------------ the plan

  /** Everything the run decides before the first command: every failure
      here stops the run before any command runs.  The command line is
      checked first, then the device is loaded (mob.py:226). */
  function Plan(inv: Invocation, cat: Catalogue, disk: Disk): (r: Result<seq<Step>>)
    ensures !Accepted(inv, cat) ==> r.Fail? && ExitStatus(r.error) == 2
    ensures Accepted(inv, cat) && LoadDevice(inv.device, disk).Fail? ==> r == Fail(LoadDevice(inv.device, disk).error)
    ensures r.Fail? && Accepted(inv, cat) ==> ExitStatus(r.error) == 1
    ensures Accepted(inv, cat) && LoadDevice(inv.device, disk).Ok? ==>
      r == match inv.command
           case DeviceCmd(action) => Ok(DeviceSteps(action, LoadDevice(inv.device, disk).value))
           case _ => PlanTargets(inv, cat, LoadDevice(inv.device, disk).value, disk)
  {
    var _ :- Validate(inv, cat);
    var device :- LoadDevice(inv.device, disk);
    match inv.command
    case DeviceCmd(action) => Ok(DeviceSteps(action, device))
    case _ => PlanTargets(inv, cat, device, disk)
  }

  /** A `device` run plans the same steps whatever `targets` holds. */
  lemma DeviceIgnoresTargets(inv: Invocation, cat: Catalogue, disk: Disk)
    requires inv.command.DeviceCmd?
    ensures Plan(inv, cat, disk) == Plan(inv.(targets := []), cat, disk)
  {
  }

  /** `build` and `install` once the device is loaded (mob.py:229-271): the
      seed arguments, the tree, the list, the steps. */
  function PlanTargets(inv: Invocation, cat: Catalogue, device: Config, disk: Disk): (r: Result<seq<Step>>)
    requires Accepted(inv, cat) && !inv.command.DeviceCmd?
    ensures inv.args.Unparsable? ==> r == Fail(MalformedArguments(inv.args.text))
    ensures r.Fail? ==> ExitStatus(r.error) == 1
    ensures r.Ok? <==>
      TargetArguments(inv).Ok? && MakeRoot(Context(SeedDefaults(TargetArguments(inv).value, device), disk), cat, inv.targets, 0, 0, []).Ok?
    ensures r.Ok? ==>
      var deps := MakeRoot(Context(SeedDefaults(TargetArguments(inv).value, device), disk), cat, inv.targets, 0, 0, []).value;
      r.value == Steps(inv, TargetList(Root(deps), inv.noDeps))
  {
    var arguments :- TargetArguments(inv);
    var ctx := Context(SeedDefaults(arguments, device), disk);
    var deps :- MakeRoot(ctx, cat, inv.targets, 0, 0, []);
    Ok(Steps(inv, TargetList(Root(deps), inv.noDeps)))
  }

  /** With parseable arguments, `build` and `install` get a plan whenever
      every target is buildable under the seeded configuration. */
  lemma PlanTargetsBuilds(inv: Invocation, cat: Catalogue, device: Config, disk: Disk, trees: seq<Node>)
    requires Accepted(inv, cat) && !inv.command.DeviceCmd? && TargetArguments(inv).Ok?
    requires TargetsBuildable(Context(SeedDefaults(TargetArguments(inv).value, device), disk), cat, inv.targets, trees, 0)
    ensures PlanTargets(inv, cat, device, disk).Ok?
  {
    RootBuilds(Context(SeedDefaults(TargetArguments(inv).value, device), disk), cat, inv.targets, trees, 0, 0, []);
  }

  /** With parseable arguments, a `build` or `install` without a plan stops
      with the error of one target that failed on its own. */
  lemma PlanTargetsFailure(inv: Invocation, cat: Catalogue, device: Config, disk: Disk)
    requires Accepted(inv, cat) && !inv.command.DeviceCmd? && TargetArguments(inv).Ok?
    requires PlanTargets(inv, cat, device, disk).Fail?
    ensures var ctx := Context(SeedDefaults(TargetArguments(inv).value, device), disk);
      exists k, s: nat :: 0 <= k < |inv.targets| &&
        TargetFails(ctx, cat, inv.targets[k], s, PlanTargets(inv, cat, device, disk).error)
  {
    var ctx := Context(SeedDefaults(TargetArguments(inv).value, device), disk);
    assert PlanTargets(inv, cat, device, disk) == Fail(MakeRoot(ctx, cat, inv.targets, 0, 0, []).error);
    RootFailure(ctx, cat, inv.targets, 0, 0, []);
  }

  // --------------------------------------------------------- the running

  /** The outcome of running steps: how many commands were started, and the
      exit status of the whole run. */
  datatype Outcome = Outcome(started: nat, status: int)

  /** Run the steps from position `i` on (mob.py:217-219): the `k`-th command
      started gets exit code `run(k, command)`; the first non-zero code ends
      the run with status 1. */
  function Execute(steps: seq<Step>, run: (nat, string) -> int, i: nat): (r: Outcome)
    requires i <= |steps|
    ensures i <= r.started <= |steps|
    ensures r.status == 0 || r.status == 1
    ensures r.status == 0 <==> forall k :: i <= k < |steps| ==> run(k, steps[k].command) == 0
    ensures r.status == 0 ==> r.started == |steps|
    ensures forall k :: i <= k < r.started - 1 ==> run(k, steps[k].command) == 0
    ensures r.status != 0 ==> r.started > i && run(r.started - 1, steps[r.started - 1].command) != 0
    decreases |steps| - i
  {
    if i == |steps| then Outcome(i, 0)
    else if run(i, steps[i].command) != 0 then Outcome(i + 1, 1)
    else Execute(steps, run, i + 1)
  }

  /** A whole invocation (mob.py:190-279): the exit status, and how many
      commands of the plan were started.  It succeeds exactly when the plan
      holds and every command in it exits with 0; otherwise it fails with 2
      for a rejected command line and 1 for everything else, nothing starts
      without a plan, and once a command fails no later one starts. */
  function Mob(inv: Invocation, cat: Catalogue, disk: Disk, run: (nat, string) -> int): (r: Outcome)
    ensures var p := Plan(inv, cat, disk);
      && (r.status == 0 <==> p.Ok? && forall k :: 0 <= k < |p.value| ==> run(k, p.value[k].command) == 0)
      && (r.status == 2 <==> !Accepted(inv, cat))
      && (r.status != 0 && r.status != 2 ==> r.status == 1)
      && (p.Fail? ==> r.started == 0)
      && (p.Ok? ==> r.started <= |p.value|)
      && (p.Ok? && r.status != 0 ==> r.started >= 1 && run(r.started - 1, p.value[r.started - 1].command) != 0)
  {
    match Plan(inv, cat, disk)
    case Fail(e) => Outcome(0, ExitStatus(e))
    case Ok(steps) => Execute(steps, run, 0)
  }
}

=== FILE: errors.dfy ===
/** The fatal conditions of the orchestrator and the failure-compatible result
    type every fallible operation of the model returns.  The program reports
    each of these with a message and stops the process; here they are values. */
module Errors {

  datatype Option<+T> = None | Some(value: T) {
    /** The held value, or `fallback` when there is none. */
    function UnwrapOr(fallback: T): T {
      if Some? then value else fallback
    }
  }

  /** Every way a run can stop early. */
  datatype Error =
    | MissingConfig(path: string)                      // the config file does not exist
    | UnparseableConfig(path: string)                  // the config reader rejected it
    | CircularDependency(target: string, dependency: string)
    | MalformedArguments(text: string)                 // `--args` is not a mapping literal
    | UnknownName(name: string)                        // rejected by the command-line layer
    | NoTargets                                        // rejected by the command-line layer

  /** The process exit status each fatal condition ends the run with: the
      command-line layer exits with 2, every condition the program itself
      detects with 1. */
  function ExitStatus(e: Error): (status: int)
    ensures status != 0
    ensures status == 2 <==> e.UnknownName? || e.NoTargets?
    ensures status == 1 || status == 2
  {
    if e.UnknownName? || e.NoTargets? then 2 else 1
  }

  datatype Result<+T> = Ok(value: T) | Fail(error: Error) {

    predicate IsFailure() {
      Fail?
    }

    function PropagateFailure<U>(): Result<U>
      requires Fail?
    {
      Fail(error)
    }

    function Extract(): T
      requires Ok?
    {
      value
    }
  }
}

=== FILE: ini.dfy ===
/** The parsed contents of one configuration file as the config reader keeps
    them: an ordered list of sections, each an ordered list of options (the
    reader stores both in insertion order).  Besides the options a file
    declares, the reader keeps a `__name__` bookkeeping option in each section,
    which `as_dict` drops again (mob.py:30-38). */
module Ini {
  import opened Errors

  datatype Entry = Entry(key: string, value: string)
  datatype Section = Section(name: string, entries: seq<Entry>)

  /** The bookkeeping option the reader adds to every section. */
  const NameOption: string := "__name__"

  // ---------------------------------------------------------------- lookup

  /** Value of the first option called `key`. */
  function FindEntry(es: seq<Entry>, key: string): (r: Option<string>)
    ensures r.Some? <==> exists i :: 0 <= i < |es| && es[i].key == key
    ensures r.Some? ==> exists i :: 0 <= i < |es| && es[i] == Entry(key, r.value)
  {
    if es == [] then None
    else if es[0].key == key then Some(es[0].value)
    else FindEntry(es[1..], key)
  }

  /** The first section called `name`. */
  function FindSection(secs: seq<Section>, name: string): (r: Option<Section>)
    ensures r.Some? <==> exists i :: 0 <= i < |secs| && secs[i].name == name
    ensures r.Some? ==> r.value in secs && r.value.name == name
  {
    if secs == [] then None
    else if secs[0].name == name then Some(secs[0])
    else FindSection(secs[1..], name)
  }

  predicate HasSection(secs: seq<Section>, name: string) {
    FindSection(secs, name).Some?
  }

  /** The value a section holds for an option, ignoring defaults. */
  function Lookup(secs: seq<Section>, section: string, key: string): Option<string> {
    match FindSection(secs, section)
    case None => None
    case Some(s) => FindEntry(s.entries, key)
  }

  // ---------------------------------------------------------------- update

  /** Sets an option: an existing option keeps its place, a new one goes last. */
  function PutEntry(es: seq<Entry>, key: string, value: string): (r: seq<Entry>)
    ensures FindEntry(r, key) == Some(value)
    ensures forall k :: k != key ==> FindEntry(r, k) == FindEntry(es, k)
    ensures forall e <- r :: e.key == key || e in es
    ensures DistinctKeys(es) ==> DistinctKeys(r)
  {
    if es == [] then [Entry(key, value)]
    else if es[0].key == key then [Entry(key, value)] + es[1..]
    else [es[0]] + PutEntry(es[1..], key, value)
  }

  /** `set(section, key, value)` on a file that has `section`; a file without
      it is returned unchanged (the program only calls `set` after checking). */
  function SetOption(secs: seq<Section>, section: string, key: string, value: string): (r: seq<Section>)
    ensures |r| == |secs|
    ensures forall i :: 0 <= i < |r| ==> r[i].name == secs[i].name
    ensures forall s :: s != section ==> FindSection(r, s) == FindSection(secs, s)
    ensures FindSection(r, section) ==
      match FindSection(secs, section)
      case None => None
      case Some(m) => Some(m.(entries := PutEntry(m.entries, key, value)))
  {
    if secs == [] then []
    else if secs[0].name == section then
      [secs[0].(entries := PutEntry(secs[0].entries, key, value))] + secs[1..]
    else [secs[0]] + SetOption(secs[1..], section, key, value)
  }

  /** After `set`, the section answers the new value for that option and
      every other (section, option) pair answers what it did before. */
  lemma SetOptionLookup(secs: seq<Section>, section: string, key: string, value: string)
    ensures HasSection(secs, section) ==> Lookup(SetOption(secs, section, key, value), section, key) == Some(value)
    ensures forall s, k :: s != section || k != key ==>
      Lookup(SetOption(secs, section, key, value), s, k) == Lookup(secs, s, k)
  {
  }

  /** `set` keeps section names distinct and option names distinct. */
  lemma SetOptionWellFormed(secs: seq<Section>, section: string, key: string, value: string)
    requires WellFormed(secs)
    ensures WellFormed(SetOption(secs, section, key, value))
  {
    var r := SetOption(secs, section, key, value);
    forall i | 0 <= i < |r| ensures DistinctKeys(r[i].entries) {
      SetOptionEntries(secs, section, key, value, i);
    }
  }

  lemma {:induction false} SetOptionEntries(secs: seq<Section>, section: string, key: string, value: string, i: nat)
    requires i < |secs|
    ensures var r := SetOption(secs, section, key, value);
      r[i].entries == secs[i].entries || r[i].entries == PutEntry(secs[i].entries, key, value)
    decreases i
  {
    if i > 0 && secs[0].name != section {
      SetOptionEntries(secs[1..], section, key, value, i - 1);
    }
  }

  // ------------------------------------------------------- flattened view

  /** The key prefix `as_dict` uses: nothing, or the prefix and a dot. */
  function KeyPrefix(prefix: string): string {
    if prefix == "" then "" else prefix + "."
  }

  /** The flattened key of one option. */
  function ItemKey(p: string, section: string, option: string): string {
    p + section + "." + option
  }

  /** `as_dict(prefix)`: one `prefix.section.option` key per option, the
      section's `__name__` key dropped after each section (mob.py:30-38). */
  function AsDict(prefix: string, secs: seq<Section>): map<string, string> {
    Fold(KeyPrefix(prefix), secs, map[])
  }

  function Fold(p: string, secs: seq<Section>, r: map<string, string>): map<string, string> {
    if secs == [] then r else Fold(p, secs[1..], AddSection(p, secs[0], r))
  }

  function AddSection(p: string, s: Section, r: map<string, string>): map<string, string> {
    AddEntries(p, s.name, s.entries, r) - {ItemKey(p, s.name, NameOption)}
  }

  function AddEntries(p: string, section: string, es: seq<Entry>, r: map<string, string>): map<string, string> {
    if es == [] then r
    else AddEntries(p, section, es[1..], r[ItemKey(p, section, es[0].key) := es[0].value])
  }

  /** Reference list of what `as_dict` should contain: every declared option
      of every section, as a (key, value) pair, bookkeeping options excluded. */
  function Pairs(p: string, secs: seq<Section>): seq<(string, string)> {
    if secs == [] then [] else SectionPairs(p, secs[0].name, secs[0].entries) + Pairs(p, secs[1..])
  }

  function SectionPairs(p: string, section: string, es: seq<Entry>): seq<(string, string)> {
    if es == [] then []
    else if es[0].key == NameOption then SectionPairs(p, section, es[1..])
    else [(ItemKey(p, section, es[0].key), es[0].value)] + SectionPairs(p, section, es[1..])
  }

  // ----------------------------------------------------------- soundness

  lemma {:induction false} AddEntriesSound(p: string, section: string, es: seq<Entry>, r: map<string, string>)
    ensures forall k <- AddEntries(p, section, es, r) ::
      (k in r && AddEntries(p, section, es, r)[k] == r[k])
      || exists j :: 0 <= j < |es| && k == ItemKey(p, section, es[j].key) && AddEntries(p, section, es, r)[k] == es[j].value
    decreases |es|
  {
    if es != [] {
      var r1 := r[ItemKey(p, section, es[0].key) := es[0].value];
      AddEntriesSound(p, section, es[1..], r1);
      var out := AddEntries(p, section, es, r);
      forall k <- out
        ensures (k in r && out[k] == r[k])
          || exists j :: 0 <= j < |es| && k == ItemKey(p, section, es[j].key) && out[k] == es[j].value
      {
        if k in r1 && out[k] == r1[k] {
          if k == ItemKey(p, section, es[0].key) {
            assert 0 < |es| && k == ItemKey(p, section, es[0].key) && out[k] == es[0].value;
          }
        } else {
          var j :| 0 <= j < |es[1..]| && k == ItemKey(p, section, es[1..][j].key) && out[k] == es[1..][j].value;
          assert es[1..][j] == es[j + 1];
        }
      }
    }
  }

  lemma {:induction false} SectionPairsHas(p: string, section: string, es: seq<Entry>, j: nat)
    requires j < |es| && es[j].key != NameOption
    ensures (ItemKey(p, section, es[j].key), es[j].value) in SectionPairs(p, section, es)
    decreases j
  {
    if j > 0 {
      SectionPairsHas(p, section, es[1..], j - 1);
      assert es[1..][j - 1] == es[j];
    }
  }

  lemma {:induction false} FoldSound(p: string, secs: seq<Section>, r: map<string, string>)
    ensures forall k <- Fold(p, secs, r) ::
      (k in r && Fold(p, secs, r)[k] == r[k]) || (k, Fold(p, secs, r)[k]) in Pairs(p, secs)
    decreases |secs|
  {
    if secs != [] {
      var s := secs[0];
      var r1 := AddSection(p, s, r);
      FoldSound(p, secs[1..], r1);
      AddEntriesSound(p, s.name, s.entries, r);
      var out := Fold(p, secs, r);
      forall k <- out
        ensures (k in r && out[k] == r[k]) || (k, out[k]) in Pairs(p, secs)
      {
        if k in r1 && out[k] == r1[k] {
          if !(k in r && out[k] == r[k]) {
            var j :| 0 <= j < |s.entries| && k == ItemKey(p, s.name, s.entries[j].key) && out[k] == s.entries[j].value;
            assert k != ItemKey(p, s.name, NameOption);
            assert s.entries[j].key != NameOption;
            SectionPairsHas(p, s.name, s.entries, j);
          }
        }
      }
    }
  }

  /** Every key of `as_dict` comes from a declared option of some section and
      carries that option's value: nothing is invented, no bookkeeping option
      survives. */
  lemma AsDictSound(prefix: string, secs: seq<Section>)
    ensures forall k <- AsDict(prefix, secs) :: (k, AsDict(prefix, secs)[k]) in Pairs(KeyPrefix(prefix), secs)
  {
    FoldSound(KeyPrefix(prefix), secs, map[]);
  }

  // -------------------------------------------------------- completeness

  predicate DotFree(s: string) {
    forall i :: 0 <= i < |s| ==> s[i] != '.'
  }

  /** What the reader guarantees: section names are distinct and so are the
      option names within a section. */
  predicate WellFormed(secs: seq<Section>) {
    && (forall i, j :: 0 <= i < j < |secs| ==> secs[i].name != secs[j].name)
    && (forall i :: 0 <= i < |secs| ==> DistinctKeys(secs[i].entries))
  }

  predicate DistinctKeys(es: seq<Entry>) {
    forall i, j :: 0 <= i < j < |es| ==> es[i].key != es[j].key
  }

  /** Section names free of dots, so that flattened keys cannot collide. */
  predicate DotFreeSections(secs: seq<Section>) {
    forall i :: 0 <= i < |secs| ==> DotFree(secs[i].name)
  }

  lemma ItemKeyInjective(p: string, a1: string, b1: string, a2: string, b2: string)
    requires DotFree(a1) && DotFree(a2)
    requires ItemKey(p, a1, b1) == ItemKey(p, a2, b2)
    ensures a1 == a2 && b1 == b2
  {
    var x := ItemKey(p, a1, b1);
    FirstDot(p, a1, b1);
    FirstDot(p, a2, b2);
    assert |a1| == |a2|;
    assert a1 == x[|p|..|p| + |a1|] == a2;
    assert b1 == x[|p| + |a1| + 1..] == b2;
  }

  /** In a flattened key the first dot after the prefix ends the section name. */
  lemma FirstDot(p: string, a: string, b: string)
    requires DotFree(a)
    ensures ItemKey(p, a, b)[|p| + |a|] == '.'
    ensures forall i :: |p| <= i < |p| + |a| ==> ItemKey(p, a, b)[i] != '.'
  {
    var x := ItemKey(p, a, b);
    assert x == p + a + "." + b;
    forall i | |p| <= i < |p| + |a| ensures x[i] != '.' {
      assert x[i] == a[i - |p|];
    }
  }

  lemma ItemKeyOptionInjective(p: string, section: string, o1: string, o2: string)
    requires ItemKey(p, section, o1) == ItemKey(p, section, o2)
    ensures o1 == o2
  {
    var x := ItemKey(p, section, o1);
    var n := |p + section + "."|;
    assert o1 == x[n..] == o2;
  }

  /** A key no option of `section` writes is left alone by its entries. */
  lemma {:induction false} AddEntriesKeeps(p: string, section: string, es: seq<Entry>, r: map<string, string>, k: string)
    requires forall j :: 0 <= j < |es| ==> k != ItemKey(p, section, es[j].key)
    ensures (k in AddEntries(p, section, es, r)) == (k in r)
    ensures k in r ==> AddEntries(p, section, es, r)[k] == r[k]
    decreases |es|
  {
    if es != [] {
      AddEntriesKeeps(p, section, es[1..], r[ItemKey(p, section, es[0].key) := es[0].value], k);
    }
  }

  lemma {:induction false} AddEntriesWrites(p: string, section: string, es: seq<Entry>, r: map<string, string>, j: nat)
    requires DistinctKeys(es) && j < |es|
    ensures ItemKey(p, section, es[j].key) in AddEntries(p, section, es, r)
    ensures AddEntries(p, section, es, r)[ItemKey(p, section, es[j].key)] == es[j].value
    decreases |es|
  {
    var r1 := r[ItemKey(p, section, es[0].key) := es[0].value];
    if j == 0 {
      forall i | 0 <= i < |es[1..]|
        ensures ItemKey(p, section, es[0].key) != ItemKey(p, section, es[1..][i].key)
      {
        assert es[1..][i] == es[i + 1];
        if ItemKey(p, section, es[0].key) == ItemKey(p, section, es[1..][i].key) {
          ItemKeyOptionInjective(p, section, es[0].key, es[1..][i].key);
        }
      }
      AddEntriesKeeps(p, section, es[1..], r1, ItemKey(p, section, es[0].key));
    } else {
      assert es[1..][j - 1] == es[j];
      AddEntriesWrites(p, section, es[1..], r1, j - 1);
    }
  }

  /** A key that belongs to another dot-free section is left alone. */
  lemma AddSectionKeeps(p: string, s: Section, r: map<string, string>, other: string, option: string)
    requires DotFree(s.name) && DotFree(other) && other != s.name
    ensures var k := ItemKey(p, other, option);
      (k in AddSection(p, s, r)) == (k in r) && (k in r ==> AddSection(p, s, r)[k] == r[k])
  {
    var k := ItemKey(p, other, option);
    forall j | 0 <= j < |s.entries|
      ensures k != ItemKey(p, s.name, s.entries[j].key)
    {
      if k == ItemKey(p, s.name, s.entries[j].key) {
        ItemKeyInjective(p, other, option, s.name, s.entries[j].key);
      }
    }
    AddEntriesKeeps(p, s.name, s.entries, r, k);
    if k == ItemKey(p, s.name, NameOption) {
      ItemKeyInjective(p, other, option, s.name, NameOption);
    }
  }

  lemma {:induction false} FoldKeeps(p: string, secs: seq<Section>, r: map<string, string>, other: string, option: string)
    requires DotFreeSections(secs) && DotFree(other)
    requires forall i :: 0 <= i < |secs| ==> secs[i].name != other
    ensures var k := ItemKey(p, other, option);
      (k in Fold(p, secs, r)) == (k in r) && (k in r ==> Fold(p, secs, r)[k] == r[k])
    decreases |secs|
  {
    if secs != [] {
      AddSectionKeeps(p, secs[0], r, other, option);
      FoldKeeps(p, secs[1..], AddSection(p, secs[0], r), other, option);
    }
  }

  lemma SectionPairsMember(p: string, section: string, es: seq<Entry>, pr: (string, string))
    requires pr in SectionPairs(p, section, es)
    ensures exists j ::
              && 0 <= j < |es| && es[j].key != NameOption
              && pr == (ItemKey(p, section, es[j].key), es[j].value)
  {
    if es != [] && pr != (ItemKey(p, section, es[0].key), es[0].value) {
      SectionPairsMember(p, section, es[1..], pr);
      var j :| 0 <= j < |es[1..]| && es[1..][j].key != NameOption
        && pr == (ItemKey(p, section, es[1..][j].key), es[1..][j].value);
      assert es[1..][j] == es[j + 1];
    }
  }

  lemma {:induction false} FoldComplete(p: string, secs: seq<Section>, r: map<string, string>)
    requires WellFormed(secs) && DotFreeSections(secs)
    ensures forall pr <- Pairs(p, secs) :: pr.0 in Fold(p, secs, r) && Fold(p, secs, r)[pr.0] == pr.1
    decreases |secs|
  {
    if secs != [] {
      var s := secs[0];
      var r1 := AddSection(p, s, r);
      var rest := secs[1..];
      assert WellFormed(rest) && DotFreeSections(rest) by {
        forall i | 0 <= i < |rest| ensures rest[i] == secs[i + 1] { }
      }
      FoldComplete(p, rest, r1);
      forall pr <- Pairs(p, secs)
        ensures pr.0 in Fold(p, secs, r) && Fold(p, secs, r)[pr.0] == pr.1
      {
        if pr in SectionPairs(p, s.name, s.entries) {
          SectionPairsMember(p, s.name, s.entries, pr);
          var j :| 0 <= j < |s.entries| && s.entries[j].key != NameOption
            && pr == (ItemKey(p, s.name, s.entries[j].key), s.entries[j].value);
          assert DistinctKeys(s.entries) by { assert secs[0] == s; }
          AddEntriesWrites(p, s.name, s.entries, r, j);
          if pr.0 == ItemKey(p, s.name, NameOption) {
            assert DotFree(s.name) by { assert secs[0] == s; }
            ItemKeyInjective(p, s.name, s.entries[j].key, s.name, NameOption);
          }
          forall i | 0 <= i < |rest| ensures rest[i].name != s.name {
            assert rest[i] == secs[i + 1];
          }
          FoldKeeps(p, rest, r1, s.name, s.entries[j].key);
        } else {
          assert pr in Pairs(p, rest);
        }
      }
    }
  }

  /** With distinct, dot-free section names and distinct option names (as the
      reader produces them), `as_dict` holds exactly one key per declared
      option, carrying that option's value. */
  lemma AsDictComplete(prefix: string, secs: seq<Section>)
    requires WellFormed(secs) && DotFreeSections(secs)
    ensures forall pr <- Pairs(KeyPrefix(prefix), secs) :: pr.0 in AsDict(prefix, secs) && AsDict(prefix, secs)[pr.0] == pr.1
  {
    FoldComplete(KeyPrefix(prefix), secs, map[]);
  }

  lemma PairsMember(p: string, secs: seq<Section>, pr: (string, string))
    requires pr in Pairs(p, secs)
    ensures exists i, j ::
              && 0 <= i < |secs| && 0 <= j < |secs[i].entries|
              && secs[i].entries[j].key != NameOption
              && pr == (ItemKey(p, secs[i].name, secs[i].entries[j].key), secs[i].entries[j].value)
  {
    if pr in SectionPairs(p, secs[0].name, secs[0].entries) {
      SectionPairsMember(p, secs[0].name, secs[0].entries, pr);
      var j :| 0 <= j < |secs[0].entries| && secs[0].entries[j].key != NameOption
        && pr == (ItemKey(p, secs[0].name, secs[0].entries[j].key), secs[0].entries[j].value);
    } else {
      PairsMember(p, secs[1..], pr);
      var i, j :| 0 <= i < |secs[1..]| && 0 <= j < |secs[1..][i].entries|
        && secs[1..][i].entries[j].key != NameOption
        && pr == (ItemKey(p, secs[1..][i].name, secs[1..][i].entries[j].key), secs[1..][i].entries[j].value);
      assert secs[1..][i] == secs[i + 1];
    }
  }

  /** No `prefix.section.__name__` key survives, for any dot-free section name. */
  lemma AsDictDropsBookkeeping(prefix: string, secs: seq<Section>, section: string)
    requires DotFreeSections(secs) && DotFree(section)
    ensures ItemKey(KeyPrefix(prefix), section, NameOption) !in AsDict(prefix, secs)
  {
    var p := KeyPrefix(prefix);
    var k := ItemKey(p, section, NameOption);
    if k in AsDict(prefix, secs) {
      AsDictSound(prefix, secs);
      PairsMember(p, secs, (k, AsDict(prefix, secs)[k]));
      var i, j :| 0 <= i < |secs| && 0 <= j < |secs[i].entries|
        && secs[i].entries[j].key != NameOption
        && (k, AsDict(prefix, secs)[k]) == (ItemKey(p, secs[i].name, secs[i].entries[j].key), secs[i].entries[j].value);
      ItemKeyInjective(p, section, NameOption, secs[i].name, secs[i].entries[j].key);
    }
  }
}

=== FILE: resolver.dfy ===
/** Post-order linearisation of the target tree (mob.py:124-128).  A node is
    appended after every dependency that was not already in the list, and
    "already in the list" is Python 2 equality as list membership applies
    it: a project compares by name against anything, while two installs, or
    an install and the root, are equal only when they are the same object. */
module Resolver {
  import opened Targets

  /** `a == b` between two tree nodes (mob.py:112-113).  Whenever one side is
      a project, its `__eq__` compares names (directly or reflected); every
      other pair has no `__eq__` and compares identities, which the model
      sees as equal values (an install carries its own serial number). */
  predicate Same(a: Node, b: Node) {
    if a.Project? || b.Project? then a.Name() == b.Name() else a == b
  }

  /** `x in s`. */
  predicate In(s: seq<Node>, x: Node) {
    exists k :: 0 <= k < |s| && Same(s[k], x)
  }

  /** The node `x` occurs in the tree `t`, at its top or below. */
  ghost predicate InTree(t: Node, x: Node)
    decreases t, 1
  {
    x == t || Below(t, x)
  }

  /** The node `x` occurs strictly below the top of `t`. */
  ghost predicate Below(t: Node, x: Node)
    decreases t, 0
  {
    match t
    case Install(_, _, _) => false
    case Root(deps) => exists c <- deps :: InTree(c, x)
    case Project(_, _, deps) => exists c <- deps :: InTree(c, x)
  }

  /** `resolveDependencies(t, resolved)`, returning the list it leaves behind. */
  function Resolve(t: Node, resolved: seq<Node>): (r: seq<Node>)
    ensures |r| > |resolved| && r[..|resolved|] == resolved
    ensures r[|r| - 1] == t
    ensures forall k :: |resolved| <= k < |r| - 1 ==> Below(t, r[k])
    decreases t, 1
  {
    ResolveFrom(t, 0, resolved) + [t]
  }

  /** The loop over `t`'s dependencies from index `i` on. */
  function ResolveFrom(t: Node, i: nat, resolved: seq<Node>): (r: seq<Node>)
    requires i <= |t.Dependencies()|
    ensures |r| >= |resolved| && r[..|resolved|] == resolved
    ensures forall k :: |resolved| <= k < |r| ==> Below(t, r[k])
    decreases t, 0, |t.Dependencies()| - i
  {
    if i == |t.Dependencies()| then resolved
    else
      var d := t.Dependencies()[i];
      assert d in t.deps;
      var next := if In(resolved, d) then resolved else Resolve(d, resolved);
      assert forall k :: |resolved| <= k < |next| ==> Below(t, next[k]) by {
        forall k | |resolved| <= k < |next| ensures Below(t, next[k]) {
          assert InTree(d, next[k]);
        }
      }
      var r := ResolveFrom(t, i + 1, next);
      assert r[..|resolved|] == r[..|next|][..|resolved|];
      r
  }

  // ------------------------------------------------------------ ordering

  /** Every node's dependencies occur (as `in` sees it) before it. */
  predicate DepsPrecede(s: seq<Node>) {
    forall j, d :: 0 <= j < |s| && d in s[j].Dependencies() ==> In(s[..j], d)
  }

  lemma SameReflexive(x: Node)
    ensures Same(x, x)
  {
  }

  lemma InExtends(s: seq<Node>, s': seq<Node>, x: Node)
    requires In(s, x) && |s| <= |s'| && s'[..|s|] == s
    ensures In(s', x)
  {
    var k :| 0 <= k < |s| && Same(s[k], x);
    assert s'[k] == s[k];
  }

  /** After the loop from `i`, every dependency from `i` on is in the list. */
  lemma {:induction false} ResolveFromCovers(t: Node, i: nat, resolved: seq<Node>)
    requires i <= |t.Dependencies()|
    ensures forall j :: i <= j < |t.Dependencies()| ==> In(ResolveFrom(t, i, resolved), t.Dependencies()[j])
    decreases |t.Dependencies()| - i
  {
    if i < |t.Dependencies()| {
      var d := t.Dependencies()[i];
      var next := if In(resolved, d) then resolved else Resolve(d, resolved);
      var r := ResolveFrom(t, i + 1, next);
      assert r == ResolveFrom(t, i, resolved);
      ResolveFromCovers(t, i + 1, next);
      if !In(resolved, d) {
        SameReflexive(d);
        assert Same(next[|next| - 1], d);
      }
      InExtends(next, r, d);
      forall j | i <= j < |t.Dependencies()| ensures In(r, t.Dependencies()[j]) {
        if j == i {
          assert t.Dependencies()[j] == d;
        }
      }
    }
  }

  /** Resolution keeps dependencies ahead of their dependents. */
  lemma {:induction false} ResolvePrecedes(t: Node, resolved: seq<Node>)
    requires DepsPrecede(resolved)
    ensures DepsPrecede(Resolve(t, resolved))
    decreases t, 1
  {
    var mid := ResolveFrom(t, 0, resolved);
    ResolveFromPrecedes(t, 0, resolved);
    ResolveFromCovers(t, 0, resolved);
    var r := mid + [t];
    forall j, d | 0 <= j < |r| && d in r[j].Dependencies() ensures In(r[..j], d) {
      if j < |mid| {
        assert r[..j] == mid[..j];
      } else {
        assert r[..j] == mid;
        var m :| 0 <= m < |t.Dependencies()| && t.Dependencies()[m] == d;
      }
    }
  }

  lemma {:induction false} ResolveFromPrecedes(t: Node, i: nat, resolved: seq<Node>)
    requires i <= |t.Dependencies()|
    requires DepsPrecede(resolved)
    ensures DepsPrecede(ResolveFrom(t, i, resolved))
    decreases t, 0, |t.Dependencies()| - i
  {
    if i < |t.Dependencies()| {
      var d := t.Dependencies()[i];
      assert d in t.deps;
      var next := if In(resolved, d) then resolved else Resolve(d, resolved);
      if !In(resolved, d) {
        ResolvePrecedes(d, resolved);
      }
      ResolveFromPrecedes(t, i + 1, next);
    }
  }

  // ---------------------------------------------------------- uniqueness

  /** No two project nodes of the list share a name. */
  predicate UniqueProjects(s: seq<Node>) {
    forall j, k :: 0 <= j < k < |s| && s[j].Project? && s[k].Project? ==> s[j].name != s[k].name
  }

  /** A project occurring in a tree is one `HasProject` finds. */
  lemma {:induction false} InTreeHasProject(t: Node, x: Node)
    requires InTree(t, x) && x.Project?
    ensures HasProject(t, x.name)
    decreases t
  {
    if x != t {
      match t
      case Root(deps) =>
        var c :| c in deps && InTree(c, x);
        InTreeHasProject(c, x);
      case Project(_, _, deps) =>
        var c :| c in deps && InTree(c, x);
        InTreeHasProject(c, x);
    }
  }

  /** In a tree free of ancestry cycles, no project below a project shares
      its name. */
  lemma BelowNamesDiffer(t: Node, x: Node)
    requires Acyclic(t) && t.Project? && Below(t, x) && x.Project?
    ensures x.name != t.name
  {
    var c :| c in t.deps && InTree(c, x);
    InTreeHasProject(c, x);
  }

  /** Resolving a node that is not yet in the list, in a tree free of
      ancestry cycles, adds no second project of any name. */
  lemma {:induction false} ResolveUnique(t: Node, resolved: seq<Node>)
    requires UniqueProjects(resolved) && Acyclic(t) && !In(resolved, t)
    ensures UniqueProjects(Resolve(t, resolved))
    decreases t, 1
  {
    var mid := ResolveFrom(t, 0, resolved);
    ResolveFromUnique(t, 0, resolved);
    var r := mid + [t];
    if t.Project? {
      forall j | 0 <= j < |mid| && mid[j].Project? ensures mid[j].name != t.name {
        if j < |resolved| {
          assert mid[j] == resolved[j];
          assert !Same(resolved[j], t);
        } else {
          BelowNamesDiffer(t, mid[j]);
        }
      }
    }
    forall j, k | 0 <= j < k < |r| && r[j].Project? && r[k].Project? ensures r[j].name != r[k].name {
      if k < |mid| {
        assert r[j] == mid[j] && r[k] == mid[k];
      } else {
        assert r[k] == t && r[j] == mid[j];
      }
    }
  }

  lemma {:induction false} ResolveFromUnique(t: Node, i: nat, resolved: seq<Node>)
    requires i <= |t.Dependencies()|
    requires UniqueProjects(resolved) && Acyclic(t)
    ensures UniqueProjects(ResolveFrom(t, i, resolved))
    decreases t, 0, |t.Dependencies()| - i
  {
    if i < |t.Dependencies()| {
      var d := t.Dependencies()[i];
      assert d in t.deps;
      var next := if In(resolved, d) then resolved else Resolve(d, resolved);
      if !In(resolved, d) {
        assert Acyclic(d);
        ResolveUnique(d, resolved);
      }
      ResolveFromUnique(t, i + 1, next);
    }
  }

  /** `resolveDependencies(root, [])` as the driver calls it (mob.py:254):
      the root comes last, every node follows its dependencies, no project
      appears twice, and the root's children are all in. */
  lemma ResolveRoot(root: Node)
    requires root.Root? && Acyclic(root)
    ensures var r := Resolve(root, []);
      && r[|r| - 1] == root
      && DepsPrecede(r)
      && UniqueProjects(r)
      && forall c <- root.deps :: In(r, c)
  {
    ResolvePrecedes(root, []);
    ResolveUnique(root, []);
    ResolveFromCovers(root, 0, []);
    var r := Resolve(root, []);
    forall c <- root.deps ensures In(r, c) {
      var m :| 0 <= m < |root.deps| && root.deps[m] == c;
      InExtends(ResolveFrom(root, 0, []), r, c);
    }
  }
}

=== FILE: targets.dfy ===
/** The target tree (mob.py:71-101, mob.py:115-118).  A project reads its
    `Depends` and `Installs` lists and instantiates a fresh child for every
    entry, `Depends` children first.  Cycle detection consults one ancestry
    list that the whole construction shares: the current project's name is
    pushed before every `Depends` child is built and is never popped.  The
    model threads that list through the recursion as explicit state. */
module Targets {
  import opened Errors
  import opened Words
  import opened Ini
  import opened ConfigFiles

  /** A node of the tree.  `Root` is the synthetic `Target('root')`;
      an install is a leaf, told apart from every other install object by the
      serial number it was created with. */
  datatype Node =
    | Root(deps: seq<Node>)
    | Project(name: string, config: Config, deps: seq<Node>)
    | Install(name: string, config: Config, serial: nat)
  {
    function Name(): string {
      if Root? then "root" else name
    }

    function Dependencies(): seq<Node> {
      if Install? then [] else deps
    }
  }

  /** What every level of one construction shares: the seed map every file
      is read with (the caller arguments with the device's options laid over
      them, mob.py:78 and mob.py:117) and the configuration files. */
  datatype Context = Context(seed: map<string, string>, disk: Disk)

  /** The shared ancestry list, and the serial number the next install gets. */
  datatype State = State(parents: seq<string>, nextSerial: nat)

  /** A whitespace-separated list option, empty when absent. */
  function ListOption(cfg: Config, key: string): seq<string> {
    Split(OptionValue(cfg, key))
  }

  function LoadProject(ctx: Context, name: string): Result<Config> {
    Load(name, ProjectKind, ctx.seed, ctx.disk)
  }

  function LoadInstall(ctx: Context, name: string): Result<Config> {
    Load(name, InstallKind, ctx.seed, ctx.disk)
  }

  /** The `Depends` list of a project; the same at every level, since every
      level reads the same file with the same seed. */
  function DependsOf(ctx: Context, name: string): seq<string> {
    match LoadProject(ctx, name)
    case Ok(cfg) => ListOption(cfg, "Depends")
    case Fail(_) => []
  }

  function InstallsOf(ctx: Context, name: string): seq<string> {
    match LoadProject(ctx, name)
    case Ok(cfg) => ListOption(cfg, "Installs")
    case Fail(_) => []
  }

  // -------------------------------------------------------- tree facts

  /** Some project node of the tree, the tree itself included, is called `n`. */
  ghost predicate HasProject(t: Node, n: string) {
    match t
    case Install(_, _, _) => false
    case Root(deps) => exists c <- deps :: HasProject(c, n)
    case Project(name, _, deps) => name == n || exists c <- deps :: HasProject(c, n)
  }

  /** No project node of the tree carries one of `names`. */
  ghost predicate Avoids(t: Node, names: seq<string>) {
    forall n <- names :: !HasProject(t, n)
  }

  /** No project has a descendant project of the same name: no ancestry
      cycle made it into the tree. */
  ghost predicate Acyclic(t: Node) {
    match t
    case Install(_, _, _) => true
    case Root(deps) => forall c <- deps :: Acyclic(c)
    case Project(name, _, deps) => forall c <- deps :: Acyclic(c) && !HasProject(c, name)
  }

  ghost function Universe(disk: Disk): set<string> {
    set id | id in disk && id.kind == ProjectKind :: id.name
  }

  /** Project names not yet on the ancestry list: the termination measure. */
  ghost function Remaining(disk: Disk, parents: seq<string>): nat {
    |Universe(disk) - set p | p in parents|
  }

  lemma RemainingShrinks(disk: Disk, entry: seq<string>, later: seq<string>, name: string)
    requires entry <= later
    requires FileId(ProjectKind, name) in disk && name !in entry
    ensures Remaining(disk, later + [name]) < Remaining(disk, entry)
  {
    var u := Universe(disk);
    assert name in u;
    var a := u - set p | p in later + [name];
    var b := u - set p | p in entry;
    assert a <= b - {name};
    var rest := (b - {name}) - a;
    assert b - {name} == a + rest;
    assert |b - {name}| == |a| + |rest|;
    assert b == (b - {name}) + {name};
  }

  /** The situation a project is built in when it is its own first
      dependency: it is on the list, and so is the first entry of its
      `Depends`, which stops it at once. */
  ghost predicate StopsAtFirst(ctx: Context, name: string, parents: seq<string>) {
    |DependsOf(ctx, name)| > 0 && DependsOf(ctx, name)[0] in parents
  }

  // ----------------------------------------------------- install serials

  /** The serial numbers of the tree's installs, in tree order. */
  function Serials(t: Node): seq<nat>
    decreases t, 1
  {
    match t
    case Install(_, _, serial) => [serial]
    case Root(deps) => SerialsOf(deps)
    case Project(_, _, deps) => SerialsOf(deps)
  }

  /** The serial numbers of the installs under `ts`, in order. */
  function SerialsOf(ts: seq<Node>): seq<nat>
    decreases ts, 0
  {
    if ts == [] then [] else SerialsOf(ts[..|ts| - 1]) + Serials(ts[|ts| - 1])
  }

  /** The serial numbers from `lo` up to, not including, `hi`. */
  function Range(lo: nat, hi: nat): seq<nat>
    decreases hi - lo
  {
    if lo < hi then [lo] + Range(lo + 1, hi) else []
  }

  /** Strictly increasing from `lo` on: each serial number is at least
      one more than the one before it. */
  ghost predicate Ascending(s: seq<nat>, lo: nat)
    decreases |s|
  {
    s == [] || (lo <= s[0] && Ascending(s[1..], s[0] + 1))
  }

  /** In an ascending sequence no serial number lies below `lo` and none
      occurs twice. */
  lemma {:induction false} AscendingBelow(s: seq<nat>, lo: nat)
    requires Ascending(s, lo)
    ensures forall k :: 0 <= k < |s| ==> lo <= s[k]
    ensures forall j, k :: 0 <= j < k < |s| ==> s[j] < s[k]
    decreases |s|
  {
    if s != [] {
      var t := s[1..];
      AscendingBelow(t, s[0] + 1);
      forall j, k | 0 <= j < k < |s|
        ensures s[j] < s[k]
      {
        assert s[k] == t[k - 1];
        if j > 0 {
          assert s[j] == t[j - 1];
        }
      }
      forall k | 0 <= k < |s|
        ensures lo <= s[k]
      {
        if k > 0 {
          assert s[k] == t[k - 1];
        }
      }
    }
  }

  /** Serials `lo` to `hi` ahead of an ascending run from `hi` ascend from
      `lo`. */
  lemma {:induction false} RangeAscending(lo: nat, hi: nat, t: seq<nat>)
    requires lo <= hi && Ascending(t, hi)
    ensures Ascending(Range(lo, hi) + t, lo)
    decreases hi - lo
  {
    if lo < hi {
      RangeAscending(lo + 1, hi, t);
      var s := Range(lo, hi) + t;
      assert s == [lo] + (Range(lo + 1, hi) + t);
      assert s[1..] == Range(lo + 1, hi) + t;
    } else {
      assert Range(lo, hi) + t == t;
      AscendingFrom(t, hi, lo);
    }
  }

  /** An ascending run stays ascending from any lower bound. */
  lemma AscendingFrom(s: seq<nat>, lo: nat, lo': nat)
    requires Ascending(s, lo) && lo' <= lo
    ensures Ascending(s, lo')
  {
  }

  lemma {:induction false} RangeJoin(lo: nat, mid: nat, hi: nat)
    requires lo <= mid <= hi
    ensures Range(lo, mid) + Range(mid, hi) == Range(lo, hi)
    decreases mid - lo
  {
    if lo < mid {
      RangeJoin(lo + 1, mid, hi);
      assert [lo] + Range(lo + 1, mid) + Range(mid, hi) == [lo] + (Range(lo + 1, mid) + Range(mid, hi));
    }
  }

  lemma {:induction false} SerialsOfJoin(a: seq<Node>, b: seq<Node>)
    ensures SerialsOf(a + b) == SerialsOf(a) + SerialsOf(b)
    decreases |b|
  {
    if b == [] {
      assert a + b == a;
    } else {
      var front := b[..|b| - 1];
      assert (a + b)[..|a + b| - 1] == a + front;
      assert (a + b)[|a + b| - 1] == b[|b| - 1];
      SerialsOfJoin(a, front);
    }
  }

  /** A child whose serials run from `lo` to `mid`, followed by installs
      running on to `hi`. */
  lemma ExtendSerials(acc: seq<Node>, c: Node, lo: nat, mid: nat, hi: nat, out: seq<Node>)
    requires lo <= mid <= hi
    requires Serials(c) == Range(lo, mid)
    requires SerialsOf(out) == SerialsOf(acc + [c]) + Range(mid, hi)
    ensures SerialsOf(out) == SerialsOf(acc) + Range(lo, hi)
  {
    assert (acc + [c])[..|acc|] == acc;
    RangeJoin(lo, mid, hi);
  }

  // ------------------------------------------------------- construction

  /** A config file that is missing or that the reader rejects
      (mob.py:45-54). */
  predicate FileError(e: Error) {
    e.MissingConfig? || e.UnparseableConfig?
  }

  /** The only ways construction stops: a file error, or a `Depends` entry
      already on the ancestry list (mob.py:88-90) — and then the entry is one
      the reported parent's file really lists. */
  ghost predicate ConstructionError(ctx: Context, e: Error) {
    FileError(e) || (e.CircularDependency? && e.dependency in DependsOf(ctx, e.target))
  }

  /** `ProjectTarget(name, arguments, device, parents)` (mob.py:77-101). */
  function BuildProject(ctx: Context, name: string, st: State): (r: Result<(Node, State)>)
    requires name in st.parents ==> StopsAtFirst(ctx, name, st.parents)
    ensures name in st.parents ==> r.Fail?
    ensures LoadProject(ctx, name).Fail? ==> r == Fail(LoadProject(ctx, name).error)
    ensures r.Fail? ==> ExitStatus(r.error) == 1
    ensures r.Fail? ==> ConstructionError(ctx, r.error)
    ensures r.Ok? ==> Grown(st, r.value.1) && Sound(name, r.value.0, st.parents) && MatchesFiles(ctx, r.value.0)
    ensures r.Ok? ==> BuiltProject(ctx, name, st, r.value.0, r.value.1)
    ensures r.Ok? ==> Serials(r.value.0) == Range(st.nextSerial, r.value.1.nextSerial)
    decreases Remaining(ctx.disk, st.parents), 1, 0, 0
  {
    var cfg :- LoadProject(ctx, name);
    var ds := ListOption(cfg, "Depends");
    var d :- ExpandDepends(ctx, name, ds, 0, st, [], st.parents);
    var i :- ExpandInstalls(ctx, ListOption(cfg, "Installs"), 0, d.1, []);
    BuiltWhole(ctx, name, st, cfg, d, i);
    Ok((Project(name, cfg, d.0 + i.0), i.1))
  }

  /** Both loops done, the project node delivers everything a successful
      construction promises. */
  lemma BuiltWhole(ctx: Context, name: string, st: State, cfg: Config, d: (seq<Node>, State), i: (seq<Node>, State))
    requires LoadProject(ctx, name) == Ok(cfg) && name !in st.parents
    requires DependsExpanded(ctx, name, ListOption(cfg, "Depends"), 0, st, [], st.parents, d.0, d.1)
    requires AllMatchFiles(ctx, d.0, 0)
    requires SerialsOf(d.0) == SerialsOf([]) + Range(st.nextSerial, d.1.nextSerial)
    requires ExpandInstalls(ctx, ListOption(cfg, "Installs"), 0, d.1, []) == Ok(i)
    ensures var node := Project(name, cfg, d.0 + i.0);
      && Grown(st, i.1) && Sound(name, node, st.parents) && MatchesFiles(ctx, node)
      && BuiltProject(ctx, name, st, node, i.1)
      && Serials(node) == Range(st.nextSerial, i.1.nextSerial)
  {
    InstallsNamed(ctx, ListOption(cfg, "Installs"), d.1, i.0, i.1);
    BuiltFromParts(ctx, name, st, cfg, d.0, d.1, i.0, i.1);
    ProjectSerials(ctx, name, cfg, st, d, i);
  }

  lemma BuiltFromParts(ctx: Context, name: string, st: State, cfg: Config,
                       children: seq<Node>, st1: State, installs: seq<Node>, st2: State)
    requires LoadProject(ctx, name) == Ok(cfg) && name !in st.parents
    requires DependsExpanded(ctx, name, ListOption(cfg, "Depends"), 0, st, [], st.parents, children, st1)
    requires AllMatchFiles(ctx, children, 0)
    requires Grown(st1, st2) && |installs| == |ListOption(cfg, "Installs")|
    requires forall k :: 0 <= k < |installs| ==>
      installs[k].Install? && installs[k].name == ListOption(cfg, "Installs")[k] && MatchesFiles(ctx, installs[k])
    ensures BuiltProject(ctx, name, st, Project(name, cfg, children + installs), st2)
    ensures MatchesFiles(ctx, Project(name, cfg, children + installs))
  {
    var ds, ins := ListOption(cfg, "Depends"), ListOption(cfg, "Installs");
    FromStart(ctx, name, ds, st, children, st1);
    AssembleProject(name, cfg, ds, ins, st.parents, children, installs);
    var deps := children + installs;
    forall c <- deps ensures MatchesFiles(ctx, c) {
      var k :| 0 <= k < |deps| && deps[k] == c;
      if k < |children| {
        assert c == children[k];
      } else {
        assert c == installs[k - |children|];
      }
    }
  }

  /** The children's serials run on from the state's next one, and the
      installs' from there. */
  lemma ProjectSerials(ctx: Context, name: string, cfg: Config, st: State, d: (seq<Node>, State), i: (seq<Node>, State))
    requires st.nextSerial <= d.1.nextSerial
    requires SerialsOf(d.0) == SerialsOf([]) + Range(st.nextSerial, d.1.nextSerial)
    requires ExpandInstalls(ctx, ListOption(cfg, "Installs"), 0, d.1, []) == Ok(i)
    ensures Serials(Project(name, cfg, d.0 + i.0)) == Range(st.nextSerial, i.1.nextSerial)
  {
    InstallSerials(ctx, ListOption(cfg, "Installs"), d.1, i.0, i.1);
    JoinSerials(name, cfg, d.0, i.0, st.nextSerial, d.1.nextSerial, i.1.nextSerial);
  }

  lemma JoinSerials(name: string, cfg: Config, children: seq<Node>, installs: seq<Node>, lo: nat, mid: nat, hi: nat)
    requires lo <= mid <= hi
    requires SerialsOf(children) == SerialsOf([]) + Range(lo, mid)
    requires SerialsOf(installs) == Range(mid, hi)
    ensures Serials(Project(name, cfg, children + installs)) == Range(lo, hi)
  {
    SerialsOfJoin(children, installs);
    RangeJoin(lo, mid, hi);
  }

  /** The `Depends` loop run from its start delivers exactly the children. */
  lemma FromStart(ctx: Context, name: string, ds: seq<string>, st: State, out: seq<Node>, st': State)
    requires DependsExpanded(ctx, name, ds, 0, st, [], st.parents, out, st')
    ensures |out| == |ds| && Grown(st, st')
    ensures forall k :: 0 <= k < |ds| ==> out[k].Project? && out[k].name == ds[k]
    ensures forall k :: 0 <= k < |out| ==>
      Acyclic(out[k]) && !HasProject(out[k], name) && Avoids(out[k], st.parents)
  {
  }

  lemma InstallsNamed(ctx: Context, names: seq<string>, st: State, installs: seq<Node>, st': State)
    requires ExpandInstalls(ctx, names, 0, st, []) == Ok((installs, st'))
    ensures Grown(st, st') && |installs| == |names|
    ensures forall k :: 0 <= k < |installs| ==>
      installs[k].Install? && installs[k].name == names[k] && MatchesFiles(ctx, installs[k])
  {
    var none: seq<Node> := [];
    forall k | 0 <= k < |installs|
      ensures installs[k].Install? && installs[k].name == names[k] && MatchesFiles(ctx, installs[k])
    {
      assert 0 + k - |none| == k;
      assert installs[k] == Install(names[k], LoadInstall(ctx, names[k]).value, st.nextSerial + k);
    }
  }

  /** The ancestry list only grows, and serial numbers are never reused. */
  ghost predicate Grown(st: State, st': State) {
    st.parents <= st'.parents && st.nextSerial <= st'.nextSerial
  }

  /** A project node called `name`, free of ancestry cycles, with no project
      below or at it carrying a name of `parents`. */
  ghost predicate Sound(name: string, node: Node, parents: seq<string>) {
    node.Project? && node.name == name && Acyclic(node) && Avoids(node, parents)
  }

  /** What a successful construction of `name` from state `st` delivers. */
  ghost predicate BuiltProject(ctx: Context, name: string, st: State, node: Node, st': State) {
    && node.Project? && LoadProject(ctx, name) == Ok(node.config)
    && name !in st.parents
    && Grown(st, st')
    && Shaped(name, node, ListOption(node.config, "Depends"), ListOption(node.config, "Installs"), st.parents)
  }

  /** A project node called `name` whose children are one project per entry
      of `ds` and then one install per entry of `ins`, in order, holding no
      ancestry cycle and no project called `name` or one of `parents`
      below it. */
  ghost predicate Shaped(name: string, node: Node, ds: seq<string>, ins: seq<string>, parents: seq<string>) {
    && node.Project? && node.name == name
    && ChildrenMatch(node.deps, ds, ins)
    && Acyclic(node)
    && (forall c <- node.deps :: !HasProject(c, name) && Avoids(c, parents))
  }

  /** One project per entry of `ds`, then one install per entry of `ins`, in
      list order. */
  ghost predicate ChildrenMatch(deps: seq<Node>, ds: seq<string>, ins: seq<string>) {
    && |deps| == |ds| + |ins|
    && (forall k :: 0 <= k < |ds| ==> deps[k].Project? && deps[k].name == ds[k])
    && (forall k :: 0 <= k < |ins| ==> deps[|ds| + k].Install? && deps[|ds| + k].name == ins[k])
  }

  /** Every node of the tree holds the configuration its file loads to, and
      every project's children follow its own `Depends` and `Installs`
      lists: the whole tree, not just its top, is the expansion of the files. */
  ghost predicate MatchesFiles(ctx: Context, t: Node) {
    match t
    case Root(deps) => forall c <- deps :: MatchesFiles(ctx, c)
    case Install(name, cfg, _) => LoadInstall(ctx, name) == Ok(cfg)
    case Project(name, cfg, deps) =>
      && LoadProject(ctx, name) == Ok(cfg)
      && ChildrenMatch(deps, ListOption(cfg, "Depends"), ListOption(cfg, "Installs"))
      && forall c <- deps :: MatchesFiles(ctx, c)
  }

  lemma AssembleProject(name: string, cfg: Config, ds: seq<string>, ins: seq<string>, parents: seq<string>,
                        children: seq<Node>, installs: seq<Node>)
    requires |children| == |ds| && |installs| == |ins|
    requires forall k :: 0 <= k < |ds| ==> children[k].Project? && children[k].name == ds[k]
    requires forall k :: 0 <= k < |children| ==>
      Acyclic(children[k]) && !HasProject(children[k], name) && Avoids(children[k], parents)
    requires forall k :: 0 <= k < |ins| ==> installs[k].Install? && installs[k].name == ins[k]
    ensures Shaped(name, Project(name, cfg, children + installs), ds, ins, parents)
  {
    var node := Project(name, cfg, children + installs);
    forall k | 0 <= k < |ds| ensures node.deps[k].Project? && node.deps[k].name == ds[k] {
      assert node.deps[k] == children[k];
    }
    forall k | 0 <= k < |ins| ensures node.deps[|ds| + k].Install? && node.deps[|ds| + k].name == ins[k] {
      assert node.deps[|ds| + k] == installs[k];
    }
    forall c <- node.deps
      ensures Acyclic(c) && !HasProject(c, name) && Avoids(c, parents)
    {
      var k :| 0 <= k < |node.deps| && node.deps[k] == c;
      if k < |children| {
        assert c == children[k];
      } else {
        assert c == installs[k - |children|];
      }
    }
  }

  /** The `Depends` loop (mob.py:85-95), from entry `i` on; `entry` is the
      list as the project found it. */
  function ExpandDepends(ctx: Context, name: string, ds: seq<string>, i: nat, st: State,
                         acc: seq<Node>, ghost entry: seq<string>): (r: Result<(seq<Node>, State)>)
    requires i <= |ds| && ds == DependsOf(ctx, name)
    requires LoadProject(ctx, name).Ok?
    requires entry <= st.parents
    requires i > 0 ==> name in st.parents
    requires name in entry ==> i == 0 && |ds| > 0 && ds[0] in st.parents
    ensures name in entry ==> r.Fail?
    ensures i < |ds| && ds[i] in st.parents ==> r == Fail(CircularDependency(name, ds[i]))
    ensures r.Fail? ==> ExitStatus(r.error) == 1
    ensures r.Fail? ==> ConstructionError(ctx, r.error)
    ensures r.Ok? ==> DependsExpanded(ctx, name, ds, i, st, acc, entry, r.value.0, r.value.1)
    ensures r.Ok? ==> AllMatchFiles(ctx, r.value.0, |acc|)
    ensures r.Ok? ==> SerialsOf(r.value.0) == SerialsOf(acc) + Range(st.nextSerial, r.value.1.nextSerial)
    decreases Remaining(ctx.disk, entry), 0, |ds| - i, 1
  {
    if i == |ds| then Ok((acc, st))
    else if ds[i] in st.parents then Fail(CircularDependency(name, ds[i]))
    else ExpandNext(ctx, name, ds, i, st, acc, entry)
  }

  /** One pass of the `Depends` loop body for an entry not yet on the list:
      build the entry with the parent's name pushed (mob.py:91-93), then go
      on with the next entry. */
  function ExpandNext(ctx: Context, name: string, ds: seq<string>, i: nat, st: State,
                      acc: seq<Node>, ghost entry: seq<string>): (r: Result<(seq<Node>, State)>)
    requires i < |ds| && ds == DependsOf(ctx, name)
    requires LoadProject(ctx, name).Ok?
    requires entry <= st.parents && ds[i] !in st.parents
    requires i > 0 ==> name in st.parents
    requires name !in entry
    ensures r.Fail? ==> ExitStatus(r.error) == 1
    ensures r.Fail? ==> ConstructionError(ctx, r.error)
    ensures r.Ok? ==> DependsExpanded(ctx, name, ds, i, st, acc, entry, r.value.0, r.value.1)
    ensures r.Ok? ==> AllMatchFiles(ctx, r.value.0, |acc|)
    ensures r.Ok? ==> SerialsOf(r.value.0) == SerialsOf(acc) + Range(st.nextSerial, r.value.1.nextSerial)
    decreases Remaining(ctx.disk, entry), 0, |ds| - i, 0
  {
    var pushed := st.(parents := st.parents + [name]);
    RemainingShrinks(ctx.disk, entry, st.parents, name);
    var c :- BuildProject(ctx, ds[i], pushed);
    ChildKeepsAncestry(ctx, ds[i], pushed, c.0, c.1, entry, name);
    var rest :- ExpandDepends(ctx, name, ds, i + 1, c.1, acc + [c.0], entry);
    ExtendDepends(ctx, name, ds, i, st, acc, entry, c.0, c.1, rest.0, rest.1);
    ExtendMatchesFiles(ctx, acc, c.0, rest.0);
    ExtendSerials(acc, c.0, st.nextSerial, c.1.nextSerial, rest.1.nextSerial, rest.0);
    Ok(rest)
  }

  /** After a child is built, the list still starts with what the parent
      found and now holds the parent's own name. */
  lemma ChildKeepsAncestry(ctx: Context, child: string, pushed: State, node: Node, st': State,
                           entry: seq<string>, name: string)
    requires Grown(pushed, st')
    requires pushed.parents != [] && entry <= pushed.parents[..|pushed.parents| - 1]
    requires pushed.parents[|pushed.parents| - 1] == name
    ensures entry <= st'.parents && name in st'.parents
  {
    assert st'.parents[|pushed.parents| - 1] == name;
  }

  lemma ExtendDepends(ctx: Context, name: string, ds: seq<string>, i: nat, st: State, acc: seq<Node>,
                      entry: seq<string>, child: Node, st1: State, out: seq<Node>, st2: State)
    requires i < |ds| && entry <= st.parents && name !in entry
    requires Grown(st.(parents := st.parents + [name]), st1)
    requires Sound(ds[i], child, st.parents + [name])
    requires DependsExpanded(ctx, name, ds, i + 1, st1, acc + [child], entry, out, st2)
    ensures DependsExpanded(ctx, name, ds, i, st, acc, entry, out, st2)
  {
    assert out[|acc|] == child by {
      assert out[..|acc| + 1] == acc + [child];
      assert out[..|acc| + 1][|acc|] == out[|acc|];
    }
    assert out[..|acc|] == acc by {
      assert out[..|acc|] == out[..|acc| + 1][..|acc|];
    }
    assert Avoids(child, entry) && !HasProject(child, name) by {
      forall n <- entry ensures !HasProject(child, n) {
        assert n in st.parents + [name];
      }
      assert name in st.parents + [name];
    }
  }

  lemma ExtendMatchesFiles(ctx: Context, acc: seq<Node>, child: Node, out: seq<Node>)
    requires MatchesFiles(ctx, child)
    requires |acc| < |out| && out[..|acc| + 1] == acc + [child]
    requires AllMatchFiles(ctx, out, |acc| + 1)
    ensures AllMatchFiles(ctx, out, |acc|)
  {
    assert out[|acc|] == out[..|acc| + 1][|acc|];
  }

  ghost predicate DependsExpanded(ctx: Context, name: string, ds: seq<string>, i: nat, st: State,
                                  acc: seq<Node>, entry: seq<string>, out: seq<Node>, st': State)
    requires i <= |ds|
  {
    && |out| == |acc| + |ds| - i
    && out[..|acc|] == acc
    && st.parents <= st'.parents
    && st.nextSerial <= st'.nextSerial
    && (forall k :: |acc| <= k < |out| ==>
          && out[k].Project? && out[k].name == ds[i + k - |acc|]
          && Acyclic(out[k]) && !HasProject(out[k], name) && Avoids(out[k], entry))
  }

  /** Every node of `out` from index `from` on matches the files. */
  ghost predicate AllMatchFiles(ctx: Context, out: seq<Node>, from: nat) {
    forall k :: from <= k < |out| ==> MatchesFiles(ctx, out[k])
  }

  /** The `Installs` loop (mob.py:96-101), from entry `i` on: one fresh
      install per entry, no cycle check. */
  function ExpandInstalls(ctx: Context, names: seq<string>, i: nat, st: State, acc: seq<Node>): (r: Result<(seq<Node>, State)>)
    requires i <= |names|
    ensures r.Ok? <==> forall j :: i <= j < |names| ==> LoadInstall(ctx, names[j]).Ok?
    ensures r.Fail? ==> ExitStatus(r.error) == 1
    ensures r.Fail? ==> FileError(r.error)
    ensures r.Ok? ==>
      && |r.value.0| == |acc| + |names| - i
      && r.value.0[..|acc|] == acc
      && r.value.1 == st.(nextSerial := st.nextSerial + |names| - i)
      && forall k :: |acc| <= k < |r.value.0| ==>
           r.value.0[k] == Install(names[i + k - |acc|], LoadInstall(ctx, names[i + k - |acc|]).value, st.nextSerial + k - |acc|)
    decreases |names| - i
  {
    if i == |names| then Ok((acc, st))
    else
      var cfg :- LoadInstall(ctx, names[i]);
      ExpandInstalls(ctx, names, i + 1, st.(nextSerial := st.nextSerial + 1), acc + [Install(names[i], cfg, st.nextSerial)])
  }

  /** The `Installs` loop hands out the serials from the state's next one
      on, one per entry, in order. */
  lemma InstallSerials(ctx: Context, names: seq<string>, st: State, out: seq<Node>, st': State)
    requires ExpandInstalls(ctx, names, 0, st, []) == Ok((out, st'))
    ensures st.nextSerial <= st'.nextSerial
    ensures SerialsOf(out) == Range(st.nextSerial, st'.nextSerial)
  {
    InstallsNumbered(ctx, names, st, out, st');
    ConsecutiveSerials(out, |out|, st.nextSerial);
    assert out[..|out|] == out;
  }

  /** The `k`-th install of the loop takes the `k`-th serial from the state's
      next one. */
  lemma InstallsNumbered(ctx: Context, names: seq<string>, st: State, out: seq<Node>, st': State)
    requires ExpandInstalls(ctx, names, 0, st, []) == Ok((out, st'))
    ensures st'.nextSerial == st.nextSerial + |out|
    ensures forall k :: 0 <= k < |out| ==> out[k].Install? && out[k].serial == st.nextSerial + k
  {
    assert |out| == |names|;
    forall k | 0 <= k < |out| ensures out[k].Install? && out[k].serial == st.nextSerial + k {
      assert out[k].serial == st.nextSerial + k - 0;
    }
  }

  /** The first `n` nodes are installs numbered from `lo` on. */
  lemma {:induction false} ConsecutiveSerials(out: seq<Node>, n: nat, lo: nat)
    requires n <= |out|
    requires forall k :: 0 <= k < |out| ==> out[k].Install? && out[k].serial == lo + k
    ensures SerialsOf(out[..n]) == Range(lo, lo + n)
    decreases n
  {
    if n > 0 {
      ConsecutiveSerials(out, n - 1, lo);
      assert out[..n][..n - 1] == out[..n - 1];
      RangeJoin(lo, lo + n - 1, lo + n);
    }
  }

  // ------------------------------------------------------ entry points

  /** A project named on the command line (mob.py:244): a fresh ancestry
      list, install serials continuing from `serial`.  The result is free of
      ancestry cycles and follows the files all the way down; a missing or
      unparseable file of its own stops the run with that error. */
  function NewProjectTarget(ctx: Context, name: string, serial: nat): (r: Result<(Node, nat)>)
    ensures LoadProject(ctx, name).Fail? ==> r == Fail(LoadProject(ctx, name).error)
    ensures r.Fail? ==> ExitStatus(r.error) == 1
    ensures r.Fail? ==> ConstructionError(ctx, r.error)
    ensures r.Ok? ==> Sound(name, r.value.0, []) && MatchesFiles(ctx, r.value.0) && serial <= r.value.1
  {
    var b :- BuildProject(ctx, name, State([], serial));
    Ok((b.0, b.1.nextSerial))
  }

  /** A command-line project numbers its installs `serial`, `serial + 1`, …
      up to the serial it hands back, in tree order. */
  lemma ProjectTargetSerials(ctx: Context, name: string, serial: nat)
    requires NewProjectTarget(ctx, name, serial).Ok?
    ensures var p := NewProjectTarget(ctx, name, serial).value;
      serial <= p.1 && Serials(p.0) == Range(serial, p.1)
  {
  }

  /** An install named on the command line (mob.py:246): a leaf. */
  function NewInstallTarget(ctx: Context, name: string, serial: nat): (r: Result<Node>)
    ensures r.Ok? <==> LoadInstall(ctx, name).Ok?
    ensures LoadInstall(ctx, name).Fail? ==> r == Fail(LoadInstall(ctx, name).error)
    ensures r.Fail? ==> ExitStatus(r.error) == 1
    ensures r.Fail? ==> FileError(r.error)
    ensures r.Ok? ==>
      r.value.Install? && r.value.name == name && r.value.serial == serial
      && r.value.Dependencies() == [] && MatchesFiles(ctx, r.value)
  {
    var cfg :- LoadInstall(ctx, name);
    Ok(Install(name, cfg, serial))
  }

  // ------------------------------------------- when construction succeeds

  /** No project name occurs under two different children. */
  ghost predicate Disjoint(deps: seq<Node>) {
    forall j, k, n :: 0 <= j < k < |deps| && HasProject(deps[j], n) ==> !HasProject(deps[k], n)
  }

  /** No project name occurs at two nodes of the tree. */
  ghost predicate DistinctNames(t: Node) {
    match t
    case Install(_, _, _) => true
    case Root(deps) => Disjoint(deps) && forall c <- deps :: DistinctNames(c)
    case Project(name, _, deps) => Disjoint(deps) && forall c <- deps :: DistinctNames(c) && !HasProject(c, name)
  }

  /** Some child before position `i` holds a project called `n`. */
  ghost predicate Before(deps: seq<Node>, i: nat, n: string) {
    exists j :: 0 <= j < i && j < |deps| && HasProject(deps[j], n)
  }

  /** Every name of `parents` was already in `entry` or names a project of `t`. */
  ghost predicate PushedWithin(entry: seq<string>, parents: seq<string>, t: Node) {
    forall n <- parents :: n in entry || HasProject(t, n)
  }

  /** Construction succeeds on files that unfold to a tree in which no
      project name occurs twice and none is on the list yet; every name it
      leaves on the list was there before or is a project of that tree. */
  lemma {:induction false} TreeBuilds(ctx: Context, t: Node, st: State)
    requires MatchesFiles(ctx, t) && t.Project? && DistinctNames(t) && Avoids(t, st.parents)
    ensures BuildProject(ctx, t.name, st).Ok?
    ensures PushedWithin(st.parents, BuildProject(ctx, t.name, st).value.1.parents, t)
    decreases t, 1
  {
    var name, cfg := t.name, t.config;
    assert HasProject(t, name);
    var ds, ins := ListOption(cfg, "Depends"), ListOption(cfg, "Installs");
    ExpandBuilds(ctx, t, 0, st, [], st.parents);
    var d := ExpandDepends(ctx, name, ds, 0, st, [], st.parents).value;
    InstallsLoad(ctx, t);
    var i := ExpandInstalls(ctx, ins, 0, d.1, []).value;
    BuildStep(ctx, name, st, cfg, d, i);
  }

  /** Every install a project of such a tree lists loads. */
  lemma InstallsLoad(ctx: Context, t: Node)
    requires MatchesFiles(ctx, t) && t.Project?
    ensures var ins := ListOption(t.config, "Installs");
      forall j :: 0 <= j < |ins| ==> LoadInstall(ctx, ins[j]).Ok?
  {
    var ds, ins := ListOption(t.config, "Depends"), ListOption(t.config, "Installs");
    assert ChildrenMatch(t.deps, ds, ins);
    assert forall c <- t.deps :: MatchesFiles(ctx, c);
    InstallChildrenLoad(ctx, t.deps, ds, ins);
  }

  /** Install children that match the files name installs that load. */
  lemma InstallChildrenLoad(ctx: Context, deps: seq<Node>, ds: seq<string>, ins: seq<string>)
    requires ChildrenMatch(deps, ds, ins) && forall c <- deps :: MatchesFiles(ctx, c)
    ensures forall j :: 0 <= j < |ins| ==> LoadInstall(ctx, ins[j]).Ok?
  {
    forall j | 0 <= j < |ins| ensures LoadInstall(ctx, ins[j]).Ok? {
      assert deps[|ds| + j] in deps;
    }
  }

  /** The `Depends` loop of such a tree, from entry `i` on, meets no listed
      name: the list holds only names from outside the tree, the project's
      own name and projects of the children already built. */
  lemma {:induction false} ExpandBuilds(ctx: Context, t: Node, i: nat, st: State, acc: seq<Node>, entry: seq<string>)
    requires MatchesFiles(ctx, t) && t.Project? && DistinctNames(t) && Avoids(t, entry)
    requires i <= |DependsOf(ctx, t.name)|
    requires entry <= st.parents && (i > 0 ==> t.name in st.parents)
    requires forall n <- st.parents :: n in entry || n == t.name || Before(t.deps, i, n)
    ensures ExpandDepends(ctx, t.name, DependsOf(ctx, t.name), i, st, acc, entry).Ok?
    ensures PushedWithin(entry, ExpandDepends(ctx, t.name, DependsOf(ctx, t.name), i, st, acc, entry).value.1.parents, t)
    decreases t, 0, |DependsOf(ctx, t.name)| - i
  {
    var name, ds := t.name, DependsOf(ctx, t.name);
    if i == |ds| {
      ListedWithin(t, i, entry, st.parents);
    } else {
      var c := t.deps[i];
      assert c in t.deps && c.Project? && c.name == ds[i];
      var pushed := st.(parents := st.parents + [name]);
      NextChildAvoids(t, i, entry, st.parents);
      assert HasProject(c, ds[i]);
      TreeBuilds(ctx, c, pushed);
      var b := BuildProject(ctx, ds[i], pushed).value;
      ExpandStep(ctx, name, ds, i, st, acc, entry, pushed, b);
      NextListed(t, i, entry, st.parents, b.1.parents);
      ExpandBuilds(ctx, t, i + 1, b.1, acc + [b.0], entry);
    }
  }

  /** The child the loop builds next avoids every name on the list, once
      the project's own name is pushed. */
  lemma NextChildAvoids(t: Node, i: nat, entry: seq<string>, parents: seq<string>)
    requires t.Project? && DistinctNames(t) && Avoids(t, entry) && i < |t.deps|
    requires forall n <- parents :: n in entry || n == t.name || Before(t.deps, i, n)
    ensures Avoids(t.deps[i], parents + [t.name])
  {
    var c := t.deps[i];
    assert c in t.deps;
    forall n <- parents + [t.name] ensures !HasProject(c, n) {
      if n in entry {
        assert !HasProject(t, n);
      } else if n != t.name {
        var j :| 0 <= j < i && j < |t.deps| && HasProject(t.deps[j], n);
      }
    }
  }

  /** What that child leaves on the list counts as built before the next entry. */
  lemma NextListed(t: Node, i: nat, entry: seq<string>, parents: seq<string>, later: seq<string>)
    requires t.Project? && i < |t.deps|
    requires forall n <- parents :: n in entry || n == t.name || Before(t.deps, i, n)
    requires PushedWithin(parents + [t.name], later, t.deps[i])
    ensures forall n <- later :: n in entry || n == t.name || Before(t.deps, i + 1, n)
  {
    forall n <- later ensures n in entry || n == t.name || Before(t.deps, i + 1, n) {
      if n in parents && n !in entry && n != t.name {
        var j :| 0 <= j < i && j < |t.deps| && HasProject(t.deps[j], n);
      } else if n !in parents + [t.name] {
        assert HasProject(t.deps[i], n);
      }
    }
  }

  /** At the end of the loop every listed name came from outside the tree
      or names one of its projects. */
  lemma ListedWithin(t: Node, i: nat, entry: seq<string>, parents: seq<string>)
    requires t.Project?
    requires forall n <- parents :: n in entry || n == t.name || Before(t.deps, i, n)
    ensures PushedWithin(entry, parents, t)
  {
    forall n <- parents ensures n in entry || HasProject(t, n) {
      if n !in entry && n != t.name {
        var j :| 0 <= j < i && j < |t.deps| && HasProject(t.deps[j], n);
        assert t.deps[j] in t.deps;
      }
    }
  }

  /** A command-line project builds when its files unfold to a tree in
      which no project name occurs twice. */
  lemma DistinctTreeBuilds(ctx: Context, t: Node, serial: nat)
    requires MatchesFiles(ctx, t) && t.Project? && DistinctNames(t)
    ensures NewProjectTarget(ctx, t.name, serial).Ok?
  {
    TreeBuilds(ctx, t, State([], serial));
  }

  // ---------------------------------------------- real cycles are caught

  /** The `Depends` list of every project name, as the files give it. */
  ghost function DependsGraph(ctx: Context): string -> seq<string> {
    n => DependsOf(ctx, n)
  }

  /** Every project of the tree has, for each entry `g` lists under its
      name, a project child of that name, in the same position. */
  ghost predicate Covers(g: string -> seq<string>, t: Node) {
    match t
    case Install(_, _, _) => true
    case Root(deps) => forall c <- deps :: Covers(g, c)
    case Project(name, _, deps) =>
      && |g(name)| <= |deps|
      && (forall k :: 0 <= k < |g(name)| ==> deps[k].Project? && deps[k].name == g(name)[k])
      && forall c <- deps :: Covers(g, c)
  }

  /** A tree that matches the files covers their `Depends` lists. */
  lemma {:induction false} MatchesCovers(ctx: Context, t: Node)
    requires MatchesFiles(ctx, t)
    ensures Covers(DependsGraph(ctx), t)
    decreases t
  {
    forall c <- t.Dependencies() ensures Covers(DependsGraph(ctx), c) {
      MatchesCovers(ctx, c);
    }
    if t.Project? {
      assert DependsGraph(ctx)(t.name) == ListOption(t.config, "Depends");
    }
  }

  /** Each name of `chain` is listed by `g` under the one before. */
  ghost predicate Linked(g: string -> seq<string>, chain: seq<string>) {
    forall k :: 0 <= k < |chain| - 1 ==> chain[k + 1] in g(chain[k])
  }

  /** A cycle-free project node whose tree covers `g`. */
  ghost predicate Spans(g: string -> seq<string>, t: Node) {
    t.Project? && Covers(g, t) && Acyclic(t)
  }

  /** The next name of a linked chain is a child of the node for this one. */
  lemma ChildAt(g: string -> seq<string>, t: Node, chain: seq<string>, j: nat) returns (c: Node)
    requires Spans(g, t) && j + 1 < |chain| && t.name == chain[j] && Linked(g, chain)
    ensures c in t.deps && Spans(g, c) && c.name == chain[j + 1]
  {
    assert chain[j + 1] in g(t.name);
    var k :| 0 <= k < |g(t.name)| && g(t.name)[k] == chain[j + 1];
    c := t.deps[k];
    assert c in t.deps;
  }

  /** Following a linked chain from a node of such a tree leads to a
      project node of the tree named like the last name reached. */
  lemma {:induction false} Descend(g: string -> seq<string>, t: Node, chain: seq<string>, j: nat, m: nat) returns (s: Node)
    requires Spans(g, t) && j <= m < |chain| && t.name == chain[j] && Linked(g, chain)
    ensures Spans(g, s) && s.name == chain[m]
    decreases m - j
  {
    s := t;
    if j < m {
      var c := ChildAt(g, t, chain, j);
      s := Descend(g, c, chain, j + 1, m);
    }
  }

  /** ... and that node lies in the tree. */
  lemma {:induction false} Reaches(g: string -> seq<string>, t: Node, chain: seq<string>, j: nat, m: nat)
    requires Spans(g, t) && j <= m < |chain| && t.name == chain[j] && Linked(g, chain)
    ensures HasProject(t, chain[m])
    decreases m - j
  {
    if j < m {
      var c := ChildAt(g, t, chain, j);
      Reaches(g, c, chain, j + 1, m);
    }
  }

  /** Every real cycle is caught: when the `Depends` entries lead from
      `chain[0]` to `chain[i]` and on from there back to the same name at
      `chain[j]`, constructing `chain[0]` fails. */
  lemma RealCycleFails(ctx: Context, chain: seq<string>, i: nat, j: nat, serial: nat)
    requires i < j < |chain| && chain[i] == chain[j]
    requires forall k :: 0 <= k < |chain| - 1 ==> chain[k + 1] in DependsOf(ctx, chain[k])
    ensures NewProjectTarget(ctx, chain[0], serial).Fail?
  {
    var g := DependsGraph(ctx);
    assert Linked(g, chain);
    var r := NewProjectTarget(ctx, chain[0], serial);
    if r.Ok? {
      MatchesCovers(ctx, r.value.0);
      var s := Descend(g, r.value.0, chain, 0, i);
      var c := ChildAt(g, s, chain, i);
      Reaches(g, c, chain, i + 1, j);
      assert false;
    }
  }

  // ------------------------------------------------------- scenarios

  /** A project file whose `Main` section declares only `Depends`. */
  function DependsFile(depends: string): FileContent {
    Parsed(map[], [Section(MainSection, [Entry("Depends", depends)])])
  }

  /** A declares `B C`, B declares `D`, C declares `B`: no project depends on
      itself through any chain. */
  const Diamond: Disk := map[
    FileId(ProjectKind, "A") := DependsFile("B C"),
    FileId(ProjectKind, "B") := DependsFile("D"),
    FileId(ProjectKind, "C") := DependsFile("B"),
    FileId(ProjectKind, "D") := Parsed(map[], [])]

  /** A `DependsFile`'s `Depends` list is its words, and it installs nothing. */
  lemma DependsOfFile(disk: Disk, name: string, depends: string)
    requires FileId(ProjectKind, name) in disk && disk[FileId(ProjectKind, name)] == DependsFile(depends)
    ensures var ctx := Context(map[], disk);
      DependsOf(ctx, name) == Split(depends) && InstallsOf(ctx, name) == []
  {
    var ctx := Context(map[], disk);
    var cfg := LoadProject(ctx, name).value;
    assert cfg.sections == [Section(MainSection, [Entry("Depends", depends)])];
    assert |"Installs"| != |"Depends"| && |"Installs"| != |NameKey| && |"Depends"| != |NameKey|;
    assert Lookup(cfg.sections, MainSection, "Depends") == Some(depends);
    assert Lookup(cfg.sections, MainSection, "Installs") == None;
    assert OptionValue(cfg, "Installs") == "";
  }

  /** A project file whose `Depends` sits in `[DEFAULT]`, under an empty
      `Main`, still depends on that project. */
  lemma DefaultSectionDepends()
    ensures var ctx := Context(map[], map[FileId(ProjectKind, "A") := Parsed(map["Depends" := "B"], [Section(MainSection, [])])]);
      DependsOf(ctx, "A") == ["B"]
  {
    var ctx := Context(map[], map[FileId(ProjectKind, "A") := Parsed(map["Depends" := "B"], [Section(MainSection, [])])]);
    var cfg := LoadProject(ctx, "A").value;
    assert HasSection(cfg.sections, MainSection);
    assert "Depends" in cfg.defaults && cfg.defaults["Depends"] == "B";
    assert |"Depends"| != |NameKey|;
    assert Lookup(cfg.sections, MainSection, "Depends") == None;
    assert OptionValue(cfg, "Depends") == "B";
    SplitScenario();
  }

  lemma SplitScenario()
    ensures Split("B C") == ["B", "C"] && Split("B") == ["B"] && Split("D") == ["D"]
  {
    assert WordLength("C") == 1;
    assert WordLength("B C") == 1;
    assert "B C"[..1] == "B" && "B C"[1..] == " C" && " C"[1..] == "C";
    assert "C"[..1] == "C" && "C"[1..] == [];
    assert "B"[..1] == "B" && "B"[1..] == [];
    assert "D"[..1] == "D" && "D"[1..] == [];
  }

  function DiamondContext(): Context {
    Context(map[], Diamond)
  }

  lemma DiamondA()
    ensures LoadProject(DiamondContext(), "A").Ok?
    ensures DependsOf(DiamondContext(), "A") == ["B", "C"]
  {
    SplitScenario();
    assert Diamond[FileId(ProjectKind, "A")] == DependsFile("B C");
    DependsOfFile(Diamond, "A", "B C");
  }

  lemma DiamondB()
    ensures LoadProject(DiamondContext(), "B").Ok?
    ensures DependsOf(DiamondContext(), "B") == ["D"] && InstallsOf(DiamondContext(), "B") == []
  {
    SplitScenario();
    assert Diamond[FileId(ProjectKind, "B")] == DependsFile("D");
    DependsOfFile(Diamond, "B", "D");
  }

  lemma DiamondC()
    ensures LoadProject(DiamondContext(), "C").Ok?
    ensures DependsOf(DiamondContext(), "C") == ["B"]
  {
    SplitScenario();
    assert Diamond[FileId(ProjectKind, "C")] == DependsFile("B");
    DependsOfFile(Diamond, "C", "B");
  }

  lemma DiamondD()
    ensures LoadProject(DiamondContext(), "D") == Ok(Config("D", ProjectKind, map[], []))
    ensures DependsOf(DiamondContext(), "D") == [] && InstallsOf(DiamondContext(), "D") == []
  {
  }

  // Single steps of the construction, for following it on given files.

  lemma BuildStep(ctx: Context, name: string, st: State, cfg: Config, d: (seq<Node>, State), i: (seq<Node>, State))
    requires name !in st.parents && LoadProject(ctx, name) == Ok(cfg)
    requires ExpandDepends(ctx, name, ListOption(cfg, "Depends"), 0, st, [], st.parents) == Ok(d)
    requires ExpandInstalls(ctx, ListOption(cfg, "Installs"), 0, d.1, []) == Ok(i)
    ensures BuildProject(ctx, name, st) == Ok((Project(name, cfg, d.0 + i.0), i.1))
  {
  }

  lemma BuildStops(ctx: Context, name: string, st: State, e: Error)
    requires name !in st.parents && LoadProject(ctx, name).Ok?
    requires ExpandDepends(ctx, name, DependsOf(ctx, name), 0, st, [], st.parents) == Fail(e)
    ensures BuildProject(ctx, name, st) == Fail(e)
  {
  }

  lemma ExpandStep(ctx: Context, name: string, ds: seq<string>, i: nat, st: State, acc: seq<Node>,
                   entry: seq<string>, pushed: State, c: (Node, State))
    requires i < |ds| && ds == DependsOf(ctx, name) && LoadProject(ctx, name).Ok?
    requires entry <= st.parents && (i > 0 ==> name in st.parents) && name !in entry
    requires ds[i] !in st.parents && pushed == st.(parents := st.parents + [name])
    requires BuildProject(ctx, ds[i], pushed) == Ok(c)
    ensures entry <= c.1.parents && name in c.1.parents
    ensures ExpandDepends(ctx, name, ds, i, st, acc, entry) == ExpandDepends(ctx, name, ds, i + 1, c.1, acc + [c.0], entry)
  {
    ChildKeepsAncestry(ctx, ds[i], pushed, c.0, c.1, entry, name);
  }

  lemma ExpandChildFails(ctx: Context, name: string, ds: seq<string>, i: nat, st: State, acc: seq<Node>,
                         entry: seq<string>, pushed: State, e: Error)
    requires i < |ds| && ds == DependsOf(ctx, name) && LoadProject(ctx, name).Ok?
    requires entry <= st.parents && (i > 0 ==> name in st.parents) && name !in entry
    requires ds[i] !in st.parents && pushed == st.(parents := st.parents + [name])
    requires BuildProject(ctx, ds[i], pushed) == Fail(e)
    ensures ExpandDepends(ctx, name, ds, i, st, acc, entry) == Fail(e)
  {
  }

  /** A project without dependencies builds without touching the list. */
  lemma LeafBuilds(ctx: Context, name: string, st: State)
    requires name !in st.parents && LoadProject(ctx, name).Ok?
    requires DependsOf(ctx, name) == [] && InstallsOf(ctx, name) == []
    ensures BuildProject(ctx, name, st).Ok? && BuildProject(ctx, name, st).value.1 == st
  {
    var cfg := LoadProject(ctx, name).value;
    assert ExpandDepends(ctx, name, [], 0, st, [], st.parents) == Ok(([], st));
    assert ExpandInstalls(ctx, [], 0, st, []) == Ok(([], st));
    BuildStep(ctx, name, st, cfg, ([], st), ([], st));
  }

  /** A project whose one dependency is a leaf pushes its own name once. */
  lemma ChainBuilds(ctx: Context, name: string, dep: string, st: State)
    requires name !in st.parents && dep !in st.parents && name != dep
    requires LoadProject(ctx, name).Ok? && DependsOf(ctx, name) == [dep] && InstallsOf(ctx, name) == []
    requires LoadProject(ctx, dep).Ok? && DependsOf(ctx, dep) == [] && InstallsOf(ctx, dep) == []
    ensures BuildProject(ctx, name, st).Ok?
    ensures BuildProject(ctx, name, st).value.1 == st.(parents := st.parents + [name])
  {
    var pushed := st.(parents := st.parents + [name]);
    LeafBuilds(ctx, dep, pushed);
    var d := BuildProject(ctx, dep, pushed).value;
    ExpandStep(ctx, name, [dep], 0, st, [], st.parents, pushed, d);
    assert ExpandDepends(ctx, name, [dep], 1, d.1, [d.0], st.parents) == Ok(([d.0], d.1));
    assert ExpandInstalls(ctx, [], 0, d.1, []) == Ok(([], d.1));
    BuildStep(ctx, name, st, LoadProject(ctx, name).value, ([d.0], d.1), ([], d.1));
  }

  /** A project whose first dependency is already on the list stops there. */
  lemma StopsOnListed(ctx: Context, name: string, st: State)
    requires LoadProject(ctx, name).Ok?
    requires |DependsOf(ctx, name)| > 0 && DependsOf(ctx, name)[0] in st.parents
    ensures BuildProject(ctx, name, st) == Fail(CircularDependency(name, DependsOf(ctx, name)[0]))
  {
    if name !in st.parents {
      BuildStops(ctx, name, st, CircularDependency(name, DependsOf(ctx, name)[0]));
    }
  }

  /** A project that lists itself stops at once, with itself on both sides
      of the reported cycle. */
  lemma SelfDependencyFails(ctx: Context, p: string)
    requires LoadProject(ctx, p).Ok? && |DependsOf(ctx, p)| > 0 && DependsOf(ctx, p)[0] == p
    ensures NewProjectTarget(ctx, p, 0) == Fail(CircularDependency(p, p))
  {
    StopsOnListed(ctx, p, State([p], 0));
    ExpandChildFails(ctx, p, DependsOf(ctx, p), 0, State([], 0), [], [], State([p], 0), CircularDependency(p, p));
    BuildStops(ctx, p, State([], 0), CircularDependency(p, p));
  }

  /** Two projects that list each other: the second one built reports the
      cycle. */
  lemma MutualDependencyFails(ctx: Context, p: string, q: string)
    requires p != q
    requires LoadProject(ctx, p).Ok? && |DependsOf(ctx, p)| > 0 && DependsOf(ctx, p)[0] == q
    requires LoadProject(ctx, q).Ok? && |DependsOf(ctx, q)| > 0 && DependsOf(ctx, q)[0] == p
    ensures NewProjectTarget(ctx, p, 0) == Fail(CircularDependency(q, p))
  {
    StopsOnListed(ctx, q, State([p], 0));
    ExpandChildFails(ctx, p, DependsOf(ctx, p), 0, State([], 0), [], [], State([p], 0), CircularDependency(q, p));
    BuildStops(ctx, p, State([], 0), CircularDependency(q, p));
  }

  /** The shared ancestry list reports a cycle that is not there.  Whatever
      the files say beyond these lists: when `a` depends on `b` and `c`, `b`
      on a leaf `d`, and `c` on `b`, then `b`'s name, pushed while `b` was
      expanded as `a`'s first child, is still on the list when `c` asks for
      `b`, and building `a` stops with a cycle between `c` and `b`. */
  lemma DiamondFails(ctx: Context, a: string, b: string, c: string, d: string)
    requires a != b && a != c && a != d && b != c && b != d && c != d
    requires LoadProject(ctx, a).Ok? && DependsOf(ctx, a) == [b, c]
    requires LoadProject(ctx, b).Ok? && DependsOf(ctx, b) == [d] && InstallsOf(ctx, b) == []
    requires LoadProject(ctx, c).Ok? && DependsOf(ctx, c) == [b]
    requires LoadProject(ctx, d).Ok? && DependsOf(ctx, d) == [] && InstallsOf(ctx, d) == []
    ensures NewProjectTarget(ctx, a, 0) == Fail(CircularDependency(c, b))
  {
    var bb := DiamondFirstChild(ctx, a, b, d);
    DiamondSecondChild(ctx, a, b, c, bb);
    FailsAfterFirstChild(ctx, a, bb, CircularDependency(c, b));
  }

  /** A leaf shared by two branches is no false cycle: when `a` depends on
      `b` and `c`, and both of those on a leaf `d`, building `a` succeeds,
      for a leaf never pushes its own name. */
  lemma SharedLeafBuilds(ctx: Context, a: string, b: string, c: string, d: string)
    requires a != b && a != c && a != d && b != c && b != d && c != d
    requires LoadProject(ctx, a).Ok? && DependsOf(ctx, a) == [b, c] && InstallsOf(ctx, a) == []
    requires LoadProject(ctx, b).Ok? && DependsOf(ctx, b) == [d] && InstallsOf(ctx, b) == []
    requires LoadProject(ctx, c).Ok? && DependsOf(ctx, c) == [d] && InstallsOf(ctx, c) == []
    requires LoadProject(ctx, d).Ok? && DependsOf(ctx, d) == [] && InstallsOf(ctx, d) == []
    ensures NewProjectTarget(ctx, a, 0).Ok?
  {
    var bb := DiamondFirstChild(ctx, a, b, d);
    var done := SharedSecondChild(ctx, a, b, c, d, bb);
    BuildsAfterFirstChild(ctx, a, bb, done);
  }

  lemma SharedSecondChild(ctx: Context, a: string, b: string, c: string, d: string, bb: (Node, State))
    returns (done: (seq<Node>, State))
    requires a != b && a != c && a != d && b != c && b != d && c != d && bb.1 == State([a, b], 0)
    requires LoadProject(ctx, a).Ok? && DependsOf(ctx, a) == [b, c]
    requires LoadProject(ctx, c).Ok? && DependsOf(ctx, c) == [d] && InstallsOf(ctx, c) == []
    requires LoadProject(ctx, d).Ok? && DependsOf(ctx, d) == [] && InstallsOf(ctx, d) == []
    ensures ExpandDepends(ctx, a, [b, c], 1, bb.1, [bb.0], []) == Ok(done)
  {
    var second := bb.1.(parents := bb.1.parents + [a]);
    assert second.parents == [a, b, a];
    ChainBuilds(ctx, c, d, second);
    var cc := BuildProject(ctx, c, second).value;
    ExpandStep(ctx, a, [b, c], 1, bb.1, [bb.0], [], second, cc);
    done := ([bb.0] + [cc.0], cc.1);
    assert ExpandDepends(ctx, a, [b, c], 2, cc.1, done.0, []) == Ok(done);
  }

  /** A fresh project without installs whose first child builds and whose
      loop then completes builds as a whole. */
  lemma BuildsAfterFirstChild(ctx: Context, a: string, bb: (Node, State), done: (seq<Node>, State))
    requires LoadProject(ctx, a).Ok? && |DependsOf(ctx, a)| > 1 && DependsOf(ctx, a)[0] != a
    requires InstallsOf(ctx, a) == []
    requires BuildProject(ctx, DependsOf(ctx, a)[0], State([a], 0)) == Ok(bb) && a in bb.1.parents
    requires ExpandDepends(ctx, a, DependsOf(ctx, a), 1, bb.1, [bb.0], []) == Ok(done)
    ensures NewProjectTarget(ctx, a, 0).Ok?
  {
    FirstChildThenRest(ctx, a, bb, done);
    assert ExpandInstalls(ctx, [], 0, done.1, []) == Ok(([], done.1));
    BuildStep(ctx, a, State([], 0), LoadProject(ctx, a).value, done, ([], done.1));
  }

  /** The first child built, the loop over the whole list ends where the
      loop from the second entry ends. */
  lemma FirstChildThenRest(ctx: Context, a: string, bb: (Node, State), done: (seq<Node>, State))
    requires LoadProject(ctx, a).Ok? && |DependsOf(ctx, a)| > 1 && DependsOf(ctx, a)[0] != a
    requires BuildProject(ctx, DependsOf(ctx, a)[0], State([a], 0)) == Ok(bb) && a in bb.1.parents
    requires ExpandDepends(ctx, a, DependsOf(ctx, a), 1, bb.1, [bb.0], []) == Ok(done)
    ensures ExpandDepends(ctx, a, DependsOf(ctx, a), 0, State([], 0), [], []) == Ok(done)
  {
    var st := State([], 0);
    assert st.(parents := st.parents + [a]) == State([a], 0);
    ExpandFirst(ctx, a, st, bb);
  }

  /** The loop's first pass: the first entry built, the rest of the list
      continues from the state it hands back. */
  lemma ExpandFirst(ctx: Context, name: string, st: State, c: (Node, State))
    requires LoadProject(ctx, name).Ok? && DependsOf(ctx, name) != []
    requires name !in st.parents && DependsOf(ctx, name)[0] !in st.parents
    requires BuildProject(ctx, DependsOf(ctx, name)[0], st.(parents := st.parents + [name])) == Ok(c)
    ensures st.parents <= c.1.parents && name in c.1.parents
    ensures ExpandDepends(ctx, name, DependsOf(ctx, name), 0, st, [], st.parents)
         == ExpandDepends(ctx, name, DependsOf(ctx, name), 1, c.1, [c.0], st.parents)
  {
    var none: seq<Node> := [];
    ExpandStep(ctx, name, DependsOf(ctx, name), 0, st, none, st.parents, st.(parents := st.parents + [name]), c);
    assert none + [c.0] == [c.0];
  }

  /** A fresh project whose first child builds and whose loop then fails
      fails as a whole. */
  lemma FailsAfterFirstChild(ctx: Context, a: string, bb: (Node, State), e: Error)
    requires LoadProject(ctx, a).Ok? && |DependsOf(ctx, a)| > 1 && DependsOf(ctx, a)[0] != a
    requires BuildProject(ctx, DependsOf(ctx, a)[0], State([a], 0)) == Ok(bb) && a in bb.1.parents
    requires ExpandDepends(ctx, a, DependsOf(ctx, a), 1, bb.1, [bb.0], []) == Fail(e)
    ensures NewProjectTarget(ctx, a, 0) == Fail(e)
  {
    ExpandStep(ctx, a, DependsOf(ctx, a), 0, State([], 0), [], [], State([a], 0), bb);
    var none: seq<Node> := [];
    assert none + [bb.0] == [bb.0];
    BuildStops(ctx, a, State([], 0), e);
  }

  lemma DiamondFirstChild(ctx: Context, a: string, b: string, d: string) returns (bb: (Node, State))
    requires a != b && a != d && b != d
    requires LoadProject(ctx, b).Ok? && DependsOf(ctx, b) == [d] && InstallsOf(ctx, b) == []
    requires LoadProject(ctx, d).Ok? && DependsOf(ctx, d) == [] && InstallsOf(ctx, d) == []
    ensures BuildProject(ctx, b, State([a], 0)) == Ok(bb) && bb.1 == State([a, b], 0)
  {
    ChainBuilds(ctx, b, d, State([a], 0));
    bb := BuildProject(ctx, b, State([a], 0)).value;
  }

  lemma DiamondSecondChild(ctx: Context, a: string, b: string, c: string, bb: (Node, State))
    requires a != b && a != c && b != c && bb.1 == State([a, b], 0)
    requires LoadProject(ctx, a).Ok? && DependsOf(ctx, a) == [b, c]
    requires LoadProject(ctx, c).Ok? && DependsOf(ctx, c) == [b]
    ensures ExpandDepends(ctx, a, [b, c], 1, bb.1, [bb.0], []) == Fail(CircularDependency(c, b))
  {
    StopsOnListed(ctx, c, State([a, b, a], 0));
    ExpandChildFails(ctx, a, [b, c], 1, bb.1, [bb.0], [], State([a, b, a], 0), CircularDependency(c, b));
  }

  /** The same on concrete files: A declares `B C`, B declares `D`, C
      declares `B`, and D has no sections at all. */
  lemma DiamondFalsePositive()
    ensures LoadProject(DiamondContext(), "A").Ok?
    ensures DependsOf(DiamondContext(), "A") == ["B", "C"] && DependsOf(DiamondContext(), "B") == ["D"]
    ensures LoadProject(DiamondContext(), "C").Ok?
    ensures DependsOf(DiamondContext(), "C") == ["B"] && DependsOf(DiamondContext(), "D") == []
    ensures NewProjectTarget(DiamondContext(), "A", 0) == Fail(CircularDependency("C", "B"))
  {
    DiamondA();
    DiamondB();
    DiamondC();
    DiamondD();
    DiamondFails(DiamondContext(), "A", "B", "C", "D");
  }
}

=== FILE: words.dfy ===
/** Whitespace splitting of list-valued options such as `Depends` and
    `Installs` (mob.py:86, mob.py:97): Python's `str.split()` with no argument
    splits on runs of whitespace and never yields an empty word. */
module Words {

  /** The characters `str.split()` treats as separators in a byte string. */
  predicate IsSpace(c: char) {
    c == ' ' || c == '\t' || c == '\n' || c == '\r' || c == '\U{000B}' || c == '\U{000C}'
  }

  /** A word as `split()` yields it: non-empty and free of separators. */
  predicate IsWord(w: string) {
    |w| > 0 && forall i :: 0 <= i < |w| ==> !IsSpace(w[i])
  }

  /** Length of the run of non-separators that starts `s`. */
  function WordLength(s: string): (n: nat)
    ensures n <= |s|
    ensures forall i :: 0 <= i < n ==> !IsSpace(s[i])
    ensures n < |s| ==> IsSpace(s[n])
  {
    if s == [] || IsSpace(s[0]) then 0 else 1 + WordLength(s[1..])
  }

  /** The words of `s`, in order. */
  function Split(s: string): (words: seq<string>)
    ensures forall w <- words :: IsWord(w)
    ensures s == [] ==> words == []
    decreases |s|
  {
    if s == [] then []
    else if IsSpace(s[0]) then Split(s[1..])
    else
      var n := WordLength(s);
      [s[..n]] + Split(s[n..])
  }

  /** The words joined by single spaces: how a list option is written. */
  function Join(words: seq<string>): string {
    if |words| == 0 then ""
    else if |words| == 1 then words[0]
    else words[0] + " " + Join(words[1..])
  }

  lemma {:induction false} WordLengthOfWord(w: string, rest: string)
    requires IsWord(w)
    requires rest == [] || IsSpace(rest[0])
    ensures WordLength(w + rest) == |w|
    decreases |w|
  {
    assert (w + rest)[0] == w[0];
    if |w| == 1 {
      assert (w + rest)[1..] == rest;
    } else {
      assert (w + rest)[1..] == w[1..] + rest;
      WordLengthOfWord(w[1..], rest);
    }
  }

  /** Splitting a written list gives the list back. */
  lemma {:induction false} SplitJoin(words: seq<string>)
    requires forall w <- words :: IsWord(w)
    ensures Split(Join(words)) == words
    decreases |words|
  {
    if |words| == 0 {
    } else if |words| == 1 {
      var w := words[0];
      WordLengthOfWord(w, []);
      assert w + [] == w;
      assert w[|w|..] == [];
      assert Split(w) == [w[..|w|]] + Split(w[|w|..]);
    } else {
      var w, rest := words[0], Join(words[1..]);
      var s := w + " " + rest;
      assert s == w + (" " + rest);
      WordLengthOfWord(w, " " + rest);
      assert s[..|w|] == w;
      assert s[|w|..] == " " + rest;
      assert (" " + rest)[1..] == rest;
      SplitJoin(words[1..]);
      assert Split(s) == [w] + Split(rest);
      assert words == [w] + words[1..];
    }
  }

  /** A word followed by a separator or by nothing is read whole. */
  lemma {:induction false} WordLengthStopsAt(s: string, t: string)
    requires WordLength(s) < |s| || t == [] || IsSpace(t[0])
    ensures WordLength(s + t) == WordLength(s)
    decreases |s|
  {
    if s == [] {
      assert s + t == t;
    } else if !IsSpace(s[0]) {
      assert (s + t)[0] == s[0];
      assert (s + t)[1..] == s[1..] + t;
      WordLengthStopsAt(s[1..], t);
    } else {
      assert (s + t)[0] == s[0];
    }
  }

  /** A single word splits to itself. */
  lemma SplitWord(w: string)
    requires IsWord(w)
    ensures Split(w) == [w]
  {
    WordLengthOfWord(w, []);
    assert w + [] == w;
    assert w[..|w|] == w && w[|w|..] == [];
  }

  /** A string of separators only holds no word. */
  lemma {:induction false} SplitSpaces(s: string)
    requires forall i :: 0 <= i < |s| ==> IsSpace(s[i])
    ensures Split(s) == []
    decreases |s|
  {
    if s != [] {
      SplitSpaces(s[1..]);
    }
  }

  /** A separator ends every word: the words on either side of it are split
      apart and kept in order.  With `SplitWord` and `SplitSpaces` this pins
      `Split` down on every input. */
  lemma {:induction false} SplitAtSpace(s1: string, c: char, s2: string)
    requires IsSpace(c)
    ensures Split(s1 + [c] + s2) == Split(s1) + Split(s2)
    decreases |s1|
  {
    var s := s1 + [c] + s2;
    if s1 == [] {
      assert s == [c] + s2 && s[1..] == s2;
    } else if IsSpace(s1[0]) {
      assert s[0] == s1[0] && s[1..] == s1[1..] + [c] + s2;
      SplitAtSpace(s1[1..], c, s2);
    } else {
      var m := WordLength(s1);
      WordLengthStopsAt(s1, [c] + s2);
      assert s == s1 + ([c] + s2);
      assert s[0] == s1[0];
      assert s[..m] == s1[..m];
      assert s[m..] == s1[m..] + [c] + s2;
      SplitAtSpace(s1[m..], c, s2);
    }
  }
}
